=== FILE: README.md ===
# URL feature extraction, modelled in Dafny

This project models `ml_utils/feature_extractor.py` of the phishing-URL
classifier. That module turns one URL string into the 30 named scores the
classifier consumes. The model covers:

- the table of known shortener hosts (`SHORTENERS`);
- the two regular expressions `IP_RE` and `PORT_RE`, as scanners proved equal
  to a declarative reading of each pattern;
- the 30 heuristics: the twelve that look at the URL and the eighteen fixed
  placeholders;
- `extract_features_from_url`, the mapping from the 30 canonical names to
  scores;
- `features_dict_to_vector`, the flattening of such a mapping in a given key
  order, where missing names read as 0.

Two pieces of library behaviour are modelled because the heuristics depend on
them in detail:

- `urllib.parse.urlparse` (`UrlSplit`). The model follows CPython 3.12's
  `urlsplit`: blanks are stripped from the front, tab, CR and LF are removed,
  the scheme is split off at the first `:`, and the netloc runs after `//` to
  the first `/`, `?` or `#`. A lone `[` or `]` in the netloc raises `ValueError`.
- `tldextract.extract`. It is a parameter, because its answer depends on the
  Public Suffix List.

Modules:

- `Wrappers`: `Option` and `Result`.
- `Text`: the Python `str` operations used, over `seq<char>`.
- `UrlSplit`: `urlparse`.
- `Patterns`: `IP_RE` and `PORT_RE`.
- `Heuristics`: one function per heuristic.
- `Features`: the extraction and the vectorisation.
- `HeuristicFacts`: properties of the heuristics that relate several calls or
  inputs.
- `WorkedExamples`: concrete URLs, each derived from the general contracts.

A plain host, in the rows below, is ASCII text with no `/`, `?` or `#`, no
tab, CR or LF, and no bracket: the split hands it back unchanged and does not
consult the host check on it.

A score is `-1` (suspicious), `0` (neutral) or `1` (legitimate). The subset
type `Score` keeps every heuristic inside that range.

`has_https` (line 60) and `https_in_domain` (line 86) call `urlparse`
without a `try`. A URL that `urlsplit` rejects therefore makes the whole
`extract_features_from_url` call raise, and with it `predict_from_url`
(`ml_utils/eval_utils.py:17`) and the request handler that calls it outside
any `try` (`app.py:30`). Every other heuristic that can meet a library error
catches it and returns a default: `short_url` (lines 28-32),
`prefix_suffix_dash` (lines 41-45), `count_subdomains` (lines 48-57) and
`non_std_port` (lines 75-83). The model follows the code. `Features.Extract`
returns `None` exactly when the URL cannot be split. `Features.ExtractTotal`
is a total extraction that gives the two unguarded heuristics defaults in the
same way (see Findings).

## Model

| member | source | states |
|---|---|---|
| Heuristics.UsingIp | ml_utils/feature_extractor.py:15-16 | -1 exactly when IP_RE, read declaratively, matches the URL, otherwise 1 |
| Patterns.IpReSearchCorrect | ml_utils/feature_extractor.py:12 | the scanner for IP_RE succeeds exactly when the pattern matches: an optional `http://` or `https://`, then four dot-separated groups of 1 to 3 digits, then `:`, `/` or the end |
| Patterns.MatchDottedQuadCorrect | ml_utils/feature_extractor.py:12 | the dotted-quad scanner accepts at an index exactly when four groups of 1 to 3 digits, a terminator after the last, start there; there is no 0-255 range check |
| Heuristics.LongUrl | ml_utils/feature_extractor.py:18-25 | 1 below `short` characters, 0 from `short` to `medium` inclusive, -1 above both thresholds |
| HeuristicFacts.LongUrlMonotone | ml_utils/feature_extractor.py:18-25 | a longer URL never scores higher than a shorter one |
| Heuristics.PortlessHost | ml_utils/feature_extractor.py:29 | the host compared is the longest `:`-free prefix of the lower-cased netloc, ending at the first `:` or at the end |
| Heuristics.ShortUrl | ml_utils/feature_extractor.py:27-32 | -1 exactly when the URL splits and its port-less, lower-cased host is a known shortener; 1 otherwise, including when `urlparse` raises |
| HeuristicFacts.ShortUrlPlainHost | ml_utils/feature_extractor.py:29-30 | for a netloc without `:` the shortener test is on the whole lower-cased netloc |
| HeuristicFacts.ShortUrlIgnoresPort | ml_utils/feature_extractor.py:29-30 | a `:port` suffix does not change the shortener verdict: only the host before it counts |
| Heuristics.SymbolAt | ml_utils/feature_extractor.py:34-35 | -1 exactly when some character of the URL is `@` |
| HeuristicFacts.SymbolPersists | ml_utils/feature_extractor.py:34-35 | a URL flagged for `@` stays flagged when text is added on either side |
| Heuristics.Redirecting | ml_utils/feature_extractor.py:37-38 | -1 exactly when `//` occurs at some index above 6 |
| HeuristicFacts.RedirectingSchemeOnly | ml_utils/feature_extractor.py:37-38 | a scheme of at most five characters without `/`, its `://`, and a rest without `//` that does not start with `/` are not flagged |
| HeuristicFacts.RedirectingPersists | ml_utils/feature_extractor.py:37-38 | a URL flagged for a late `//` stays flagged when text is added on either side |
| Heuristics.PrefixSuffix | ml_utils/feature_extractor.py:40-45 | -1 exactly when extraction succeeds and the registrable label contains `-`; 1 otherwise, including when extraction raises |
| Heuristics.SubDomains | ml_utils/feature_extractor.py:47-57 | 1 for an empty subdomain, 0 for one label without a dot, -1 when the subdomain holds a dot; 0 when extraction raises |
| Heuristics.SubdomainCountIsLabelCount | ml_utils/feature_extractor.py:50 | for a non-empty subdomain the dot count plus one is the number of dot-separated labels |
| Heuristics.Https | ml_utils/feature_extractor.py:59-65 | no value exactly when `urlparse` raises; otherwise 1 for the scheme `https`, 0 for `http`, -1 for any other or none |
| HeuristicFacts.HttpsByPrefix | ml_utils/feature_extractor.py:59-62 | for a URL that splits, the score is 1 exactly when the cleaned URL starts with `https:` in any case |
| HeuristicFacts.HttpByPrefix | ml_utils/feature_extractor.py:59-64 | for a URL that splits, the score is 0 exactly when the cleaned URL starts with `http:` in any case |
| Patterns.PortSearch | ml_utils/feature_extractor.py:13 | no port exactly when no `:` is followed by two digits; a port found is below 100000 |
| Patterns.PortSearchLeftmost | ml_utils/feature_extractor.py:13 | the port is read at the first `:` with two digits after it, so earlier `:`s without two digits are skipped |
| Heuristics.NonStdPort | ml_utils/feature_extractor.py:74-83 | -1 exactly when the URL splits and PORT_RE finds a port other than 80 and 443 in the netloc; 1 otherwise, including when `urlparse` raises |
| Heuristics.DomainRegLen | ml_utils/feature_extractor.py:67-69 | 1 for every URL (no WHOIS lookup offline, the safe value); Features.ExtractPlaceholders shows that a completed extraction binds its name to that value |
| Heuristics.Favicon | ml_utils/feature_extractor.py:71-72 | 1 for every URL (the favicon is not checked, the safe value); Features.ExtractPlaceholders shows that a completed extraction binds its name to that value |
| Heuristics.RequestUrl | ml_utils/feature_extractor.py:88-89 | 1 for every URL (the URL is not looked at); Features.ExtractPlaceholders shows that a completed extraction binds its name to that value |
| Heuristics.AnchorUrl | ml_utils/feature_extractor.py:91-92 | 0 for every URL (the URL is not looked at); Features.ExtractPlaceholders shows that a completed extraction binds its name to that value |
| Heuristics.LinksInScriptTags | ml_utils/feature_extractor.py:94-95 | 0 for every URL (the URL is not looked at); Features.ExtractPlaceholders shows that a completed extraction binds its name to that value |
| Heuristics.ServerFormHandler | ml_utils/feature_extractor.py:97-98 | 1 for every URL (the URL is not looked at); Features.ExtractPlaceholders shows that a completed extraction binds its name to that value |
| Heuristics.WebsiteForwarding | ml_utils/feature_extractor.py:108-109 | 0 for every URL (the URL is not looked at); Features.ExtractPlaceholders shows that a completed extraction binds its name to that value |
| Heuristics.StatusBarCust | ml_utils/feature_extractor.py:111-112 | 1 for every URL (the URL is not looked at); Features.ExtractPlaceholders shows that a completed extraction binds its name to that value |
| Heuristics.DisableRightClick | ml_utils/feature_extractor.py:114-115 | 1 for every URL (the URL is not looked at); Features.ExtractPlaceholders shows that a completed extraction binds its name to that value |
| Heuristics.UsingPopupWindow | ml_utils/feature_extractor.py:117-118 | 1 for every URL (the URL is not looked at); Features.ExtractPlaceholders shows that a completed extraction binds its name to that value |
| Heuristics.IframeRedirection | ml_utils/feature_extractor.py:120-121 | 1 for every URL (the URL is not looked at); Features.ExtractPlaceholders shows that a completed extraction binds its name to that value |
| Heuristics.AgeOfDomain | ml_utils/feature_extractor.py:123-124 | 1 for every URL (the URL is not looked at); Features.ExtractPlaceholders shows that a completed extraction binds its name to that value |
| Heuristics.DnsRecording | ml_utils/feature_extractor.py:126-127 | 1 for every URL (the URL is not looked at); Features.ExtractPlaceholders shows that a completed extraction binds its name to that value |
| Heuristics.WebsiteTraffic | ml_utils/feature_extractor.py:129-130 | 0 for every URL (the URL is not looked at); Features.ExtractPlaceholders shows that a completed extraction binds its name to that value |
| Heuristics.PageRank | ml_utils/feature_extractor.py:132-133 | 0 for every URL (the URL is not looked at); Features.ExtractPlaceholders shows that a completed extraction binds its name to that value |
| Heuristics.GoogleIndex | ml_utils/feature_extractor.py:135-136 | 1 for every URL (the URL is not looked at); Features.ExtractPlaceholders shows that a completed extraction binds its name to that value |
| Heuristics.LinksPointingToPage | ml_utils/feature_extractor.py:138-139 | 1 for every URL (the URL is not looked at); Features.ExtractPlaceholders shows that a completed extraction binds its name to that value |
| Heuristics.StatsReport | ml_utils/feature_extractor.py:141-142 | 1 for every URL (the URL is not looked at); Features.ExtractPlaceholders shows that a completed extraction binds its name to that value |
| HeuristicFacts.NonStdPortOf | ml_utils/feature_extractor.py:77-80 | a netloc `host:digits` with a host free of `:` and 2 to 5 digits is judged by the number the digits spell, leading zeros included |
| HeuristicFacts.NonStdPortAuthority | ml_utils/feature_extractor.py:74-81 | a URL `scheme://host:digits path` with a lower-case scheme, an ASCII host free of `:`, brackets and delimiters, 2 to 5 digits, and a path that is empty or starts at `/`, `?` or `#`, and no tab, CR or LF anywhere, scores 1 when the digits read as 80 or 443 and -1 for any other value |
| HeuristicFacts.NonStdPortNoColon | ml_utils/feature_extractor.py:77-81 | a netloc without `:` scores 1 |
| Heuristics.HttpsInDomain | ml_utils/feature_extractor.py:85-86 | no value exactly when `urlparse` raises; otherwise -1 exactly when the lower-cased netloc contains `https`, and never 0 |
| HeuristicFacts.HttpsInDomainHostOnly | ml_utils/feature_extractor.py:85-86 | for `scheme://host path` with a lower-case scheme, a plain host, and a path that is empty or starts at `/`, `?` or `#` and holds no tab, CR or LF, the score depends on the host alone: -1 exactly when the lower-cased host contains `https`, so an `https` scheme or path is not counted |
| Heuristics.InfoEmail | ml_utils/feature_extractor.py:100-101 | -1 exactly when `mailto:` occurs, case-sensitively |
| HeuristicFacts.InfoEmailPersists | ml_utils/feature_extractor.py:100-101 | a URL flagged for `mailto:` stays flagged when text is added on either side |
| Heuristics.AnyTokenIn | ml_utils/feature_extractor.py:106 | true exactly when some token of the list occurs in the text |
| Heuristics.AbnormalUrl | ml_utils/feature_extractor.py:103-106 | -1 exactly when one of the eight suspicious tokens occurs in the lower-cased URL |
| HeuristicFacts.AbnormalUrlIgnoresCase | ml_utils/feature_extractor.py:106 | lower-casing the URL first does not change the verdict |
| HeuristicFacts.AbnormalPersists | ml_utils/feature_extractor.py:103-106 | a URL flagged for a suspicious token stays flagged when text is added on either side |
| UrlSplit.Parse | ml_utils/feature_extractor.py:60 | `urlparse` fails with the IPv6 error exactly when one bracket appears without the other in the netloc; on success the netloc holds no delimiter and no lone bracket, is empty without `//`, and passed the host check whenever the library consults it |
| UrlSplit.SanitizeChars | ml_utils/feature_extractor.py:60 | the cleaning `urlparse` does first drops the longest run of blanks (C0 controls and space) from the front and then deletes tab, CR and LF from the rest; every character left comes from the URL, none is a tab, CR or LF, and the first is not a blank |
| UrlSplit.RemoveUnsafeAppend | ml_utils/feature_extractor.py:60 | the deletion of tab, CR and LF acts character by character: it distributes over concatenation and keeps any other single character, so the kept characters stay in their order |
| UrlSplit.ParseRoundTrip | ml_utils/feature_extractor.py:60 | the split loses nothing but case: reassembling the parts gives back the cleaned URL with its scheme lower-cased |
| UrlSplit.ParsePlainSucceeds | ml_utils/feature_extractor.py:85-86 | a URL without brackets and without non-ASCII characters always splits, so `has_https` and `https_in_domain` cannot raise on it |
| UrlSplit.NoColonNoScheme | ml_utils/feature_extractor.py:60-65 | a URL without `:` has an empty scheme |
| UrlSplit.ParseAuthorityForm | ml_utils/feature_extractor.py:29 | `scheme://host path` with a lower-case scheme, a plain host, and a path that is empty or starts at `/`, `?` or `#` and holds no tab, CR or LF, splits into exactly those pieces |
| UrlSplit.ParseUnbalancedForm | ml_utils/feature_extractor.py:60 | the same form with one bracket in the host raises the IPv6 error |
| Features.Extract | ml_utils/feature_extractor.py:145-178 | the extraction fails exactly when the URL cannot be split |
| Features.ExtractShape | ml_utils/feature_extractor.py:145-178 | a completed extraction holds exactly the 30 canonical names, each bound to -1, 0 or 1 |
| Features.ExtractLive | ml_utils/feature_extractor.py:147-164 | each of the twelve computed names is bound to its own heuristic's score on the same URL |
| Features.ExtractPlaceholders | ml_utils/feature_extractor.py:155-176 | the thirteen placeholder names fixed at 1 are bound to 1, and the five fixed at 0 to 0 |
| Features.DefaultKeysDistinct | ml_utils/feature_extractor.py:181-187 | the 30 canonical names are pairwise different |
| Features.Vectorize | ml_utils/feature_extractor.py:180-190 | one entry per name of the order (the canonical one when none is given), each the mapping's value for that name or 0 |
| Features.VectorizeDefault | ml_utils/feature_extractor.py:188-189 | giving no order is the same as giving the canonical order, and yields 30 entries |
| Features.ExtractVectorAligned | ml_utils/feature_extractor.py:180-190 | vectorising a completed extraction in the canonical order gives each heuristic's score at its own position |
| Features.VectorizeAgree | ml_utils/feature_extractor.py:190 | two mappings give the same vector in an order exactly when they agree, with 0 for missing names, on every name of that order |
| Features.VectorizeConcat | ml_utils/feature_extractor.py:190 | the vector for two orders one after the other is the two vectors one after the other |
| Features.VectorizeRoundTrip | ml_utils/feature_extractor.py:180-190 | filing values under repetition-free names and vectorising in that order gives the values back |
| Features.VectorizeExample | ml_utils/feature_extractor.py:190 | names come out in the order asked for, and an unknown name comes out as 0 |
| Features.MeasureTotal | ml_utils/feature_extractor.py:59-86 | agrees with the source's measurement wherever it completes; on a URL that cannot be split, HTTPS falls back to -1 and HTTPSDomainURL to 1 |
| Features.ExtractTotal | ml_utils/feature_extractor.py:145-178 | an extraction defined for every URL that equals the source's extraction whenever that one completes |
| Features.ExtractTotalAgrees | ml_utils/feature_extractor.py:145-178 | the total extraction always holds exactly the 30 canonical names, each bound to -1, 0 or 1, and equals the source's extraction whenever that one completes |
| Features.ExtractTotalOnSplitError | ml_utils/feature_extractor.py:154-158 | where the URL cannot be split, the total extraction reports HTTPS -1 and HTTPSDomainURL 1 |
| WorkedExamples.ShortenerIsShort | ml_utils/feature_extractor.py:27-32 | `http://bit.ly/abc` scores -1 for ShortURL |
| WorkedExamples.ShortenerIsHttp | ml_utils/feature_extractor.py:59-64 | `http://bit.ly/abc` scores 0 for HTTPS |
| WorkedExamples.ShortenerHasNoIp | ml_utils/feature_extractor.py:15-16 | `http://bit.ly/abc` scores 1 for UsingIP |
| WorkedExamples.IpHostIsIp | ml_utils/feature_extractor.py:15-16 | `https://192.168.1.1/login` scores -1 for UsingIP |
| WorkedExamples.IpHostIsHttps | ml_utils/feature_extractor.py:59-62 | `https://192.168.1.1/login` scores 1 for HTTPS |
| WorkedExamples.IpHostIsAbnormal | ml_utils/feature_extractor.py:103-106 | `https://192.168.1.1/login` scores -1 for AbnormalURL |
| WorkedExamples.HttpsSchemeNotInDomain | ml_utils/feature_extractor.py:85-86 | `https://ab.io/https` scores 1 for HTTPSDomainURL: neither the scheme nor the path counts |
| WorkedExamples.NestedSubdomainExample | ml_utils/feature_extractor.py:47-55 | a subdomain `sub.sub2` scores -1 for SubDomains |
| WorkedExamples.EmptyUrlExample | ml_utils/feature_extractor.py:145-178 | the empty string is extracted with HTTPS -1 and ShortURL, NonStdPort and HTTPSDomainURL 1 |
| WorkedExamples.OddPortExample | ml_utils/feature_extractor.py:74-80 | `http://a.io:8080/x` scores -1 for NonStdPort |
| WorkedExamples.PaddedPortExample | ml_utils/feature_extractor.py:79-80 | `http://a.io:0080` is read as port 80 and scores 1 |
| WorkedExamples.BracketedHostPortExample | ml_utils/feature_extractor.py:76-80 | `http://[::11]:80/`, whose bracketed host the library accepts, scores -1 for NonStdPort: PORT_RE searches the raw netloc and reads the `:11` inside the brackets as the port, not the 80 after them |
| WorkedExamples.LoneBracketAborts | ml_utils/feature_extractor.py:59-60 | `http://[x` makes the source's extraction fail, while the total extraction reports HTTPS -1 |

## Left out

- `load_dataset` (file and `pandas` I/O) is not part of this model. Nor are the other modules of the repository: model loading, scoring, the web app and training.
- `tldextract.extract` is a parameter (`DomainExtractor`). Its answer depends on the Public Suffix List, which the model does not hold. `None` stands for a call that raises.
- `urlsplit` hands two checks to other library code: the validation of a bracketed host through the `ipaddress` module, and the NFKC check of a non-ASCII netloc. Both are the parameter `HostCheck`. The model consults it exactly when the library would, that is, when the netloc holds both brackets or a non-ASCII character.
- `urlparse` also splits the path into `params`, the query and the fragment. None of the heuristics reads those, so they stay in one unsplit tail.
- The `urlsplit` rules are those of CPython 3.12. Older versions differ in how they strip and split the scheme.
- Heuristics.AbnormalUrl: `str.lower()` is modelled for ASCII letters only. Python's Unicode case mapping of other letters is not modelled. The same holds for the lower-casing in `short_url`, `https_in_domain` and of the scheme.
- Heuristics.UsingIp: `\d` in IP_RE is read as an ASCII digit. Python's `str` patterns also accept other Unicode decimal digits. `$` is read as the end of the string; Python's `$` also matches before a final newline.
- Features.ExtractShape holds for a completed extraction only, since the source's extraction can raise. Features.ExtractTotalAgrees gives the canonical key set for every URL.
- The bare `except:` clauses also catch errors other than `ValueError`, such as `KeyboardInterrupt`. Those are not modelled.

## Findings

| source | as written | input that shows it | evidently intended | confidence | as-written member | corrected member |
|---|---|---|---|---|---|---|
| ml_utils/feature_extractor.py:59-65 | `has_https` (and `https_in_domain`, line 86) call `urlparse` outside any `try`, so its `ValueError` escapes and `extract_features_from_url` raises | `http://[x` (a lone `[` in the netloc) | every heuristic falls back to a default, as `short_url` and `non_std_port` do, so the extraction completes: HTTPS -1 (no recognised scheme), HTTPSDomainURL 1 | not executed | WorkedExamples.LoneBracketAborts | Features.ExtractTotalAgrees |

=== FILE: features.dfy ===
/** `extract_features_from_url` and `features_dict_to_vector`: the named
    feature mapping of one URL and its flattening into a vector in a given
    key order. */
module Features {
  import opened Wrappers
  import opened UrlSplit
  import opened Heuristics

  /** The library behaviour the extractor depends on but this model does not
      define: `tldextract.extract`, and the further netloc validation of
      `urlsplit`. */
  datatype Oracles = Oracles(tld: DomainExtractor, hostOk: HostCheck)

  /** A feature mapping: feature name to score. */
  type FeatureMap = map<string, int>

  /** `default_keys`: the canonical order of the 30 feature names. */
  const DefaultKeys: seq<string> := [
    "UsingIP", "LongURL", "ShortURL", "Symbol@", "Redirecting//", "PrefixSuffix-", "SubDomains",
    "HTTPS", "DomainRegLen", "Favicon", "NonStdPort", "HTTPSDomainURL", "RequestURL", "AnchorURL",
    "LinksInScriptTags", "ServerFormHandler", "InfoEmail", "AbnormalURL", "WebsiteForwarding",
    "StatusBarCust", "DisableRightClick", "UsingPopupWindow", "IframeRedirection", "AgeofDomain",
    "DNSRecording", "WebsiteTraffic", "PageRank", "GoogleIndex", "LinksPointingToPage", "StatsReport"
  ]

  /** Positions of the placeholders fixed at 1 (conservatively
      "legitimate"): DomainRegLen, Favicon, RequestURL, ServerFormHandler,
      StatusBarCust, DisableRightClick, UsingPopupWindow, IframeRedirection,
      AgeofDomain, DNSRecording, GoogleIndex, LinksPointingToPage and
      StatsReport. */
  const SafeSlots: set<int> := {8, 9, 12, 15, 19, 20, 21, 22, 23, 24, 27, 28, 29}

  /** Positions of the placeholders fixed at 0 (neutral): AnchorURL,
      LinksInScriptTags, WebsiteForwarding, WebsiteTraffic and PageRank. */
  const NeutralSlots: set<int> := {13, 14, 18, 25, 26}

  /** The scores of the twelve heuristics that look at the URL. */
  datatype Signals = Signals(
    usingIp: Score, longUrl: Score, shortUrl: Score, symbolAt: Score,
    redirecting: Score, prefixSuffix: Score, subDomains: Score, https: Score,
    nonStdPort: Score, httpsInDomain: Score, infoEmail: Score, abnormalUrl: Score)

  /** Runs the twelve URL heuristics. `has_https` and `https_in_domain` let a
      `urlparse` error escape, so the run fails exactly when the URL cannot be
      split. */
  function Measure(url: string, env: Oracles): (r: Option<Signals>)
    ensures r.None? <==> Parse(url, env.hostOk).Failure?
  {
    match Https(url, env.hostOk)
    case None => None
    case Some(https) =>
      match HttpsInDomain(url, env.hostOk)
      case None => None
      case Some(inDomain) =>
        Some(Signals(
          UsingIp(url), LongUrl(url), ShortUrl(url, env.hostOk), SymbolAt(url),
          Redirecting(url), PrefixSuffix(url, env.tld), SubDomains(url, env.tld), https,
          NonStdPort(url, env.hostOk), inDomain, InfoEmail(url), AbnormalUrl(url)))
  }

  /** All 30 scores in `DefaultKeys` order: the measured signals, and the
      placeholders in between. */
  function Row(g: Signals, url: string): (r: seq<Score>)
    ensures |r| == 30
  {
    [ g.usingIp, g.longUrl, g.shortUrl, g.symbolAt, g.redirecting, g.prefixSuffix,
      g.subDomains, g.https, DomainRegLen(url), Favicon(url), g.nonStdPort,
      g.httpsInDomain, RequestUrl(url), AnchorUrl(url), LinksInScriptTags(url),
      ServerFormHandler(url), g.infoEmail, g.abnormalUrl, WebsiteForwarding(url),
      StatusBarCust(url), DisableRightClick(url), UsingPopupWindow(url),
      IframeRedirection(url), AgeOfDomain(url), DnsRecording(url),
      WebsiteTraffic(url), PageRank(url), GoogleIndex(url),
      LinksPointingToPage(url), StatsReport(url) ]
  }

  /** The 30 scores of `url`, or `None` when a heuristic without a fallback
      raises. */
  function Scores(url: string, env: Oracles): (r: Option<seq<Score>>)
    ensures r.None? <==> Parse(url, env.hostOk).Failure?
    ensures r.Some? ==> |r.value| == 30
  {
    match Measure(url, env)
    case None => None
    case Some(g) => Some(Row(g, url))
  }

  /** The dictionary of `extract_features_from_url`: each name of
      `DefaultKeys` bound to the score at the same position. (The source's
      dictionary display lists the names in exactly the `default_keys`
      order.) */
  function Label(s: seq<Score>): FeatureMap
    requires |s| == 30
  {
    DefaultKeysDistinct();
    map i | 0 <= i < 30 :: DefaultKeys[i] := s[i]
  }

  /** `extract_features_from_url`. The source evaluates every heuristic;
      `has_https` and `https_in_domain` let a `urlparse` error escape, so the
      whole extraction fails exactly when the URL cannot be split. */
  function Extract(url: string, env: Oracles): (r: Option<FeatureMap>)
    ensures r.None? <==> Parse(url, env.hostOk).Failure?
  {
    match Scores(url, env)
    case None => None
    case Some(s) => Some(Label(s))
  }

  /** `d.get(k, 0)`: the score filed under `k`, or 0 when there is none. */
  function Get(d: FeatureMap, k: string): int
  {
    if k in d then d[k] else 0
  }

  /** `features_dict_to_vector`: one entry per name of the order (the
      canonical 30 when none is given), the mapping's value or 0 when the
      name is missing. */
  function Vectorize(d: FeatureMap, order: Option<seq<string>>): (v: seq<int>)
    ensures var keys := if order.Some? then order.value else DefaultKeys;
            && |v| == |keys|
            && forall i :: 0 <= i < |keys| ==> v[i] == Get(d, keys[i])
  {
    var keys := if order.Some? then order.value else DefaultKeys;
    seq(|keys|, i requires 0 <= i < |keys| => Get(d, keys[i]))
  }

  /** The 30 canonical names are pairwise different. */
  lemma DefaultKeysDistinct()
    ensures |DefaultKeys| == 30
    ensures forall i, j :: 0 <= i < j < |DefaultKeys| ==> DefaultKeys[i] != DefaultKeys[j]
  {
  }

  /** An extraction has exactly the 30 canonical names and every score is
      in {-1, 0, 1}. */
  lemma ExtractShape(url: string, env: Oracles)
    requires Extract(url, env).Some?
    ensures var m := Extract(url, env).value;
            && m.Keys == set k | k in DefaultKeys
            && |m| == 30
            && forall k :: k in m ==> m[k] in {-1, 0, 1}
  {
    ExtractIsLabel(url, env);
    LabelShape(Scores(url, env).value);
  }

  lemma ExtractIsLabel(url: string, env: Oracles)
    requires Extract(url, env).Some?
    ensures Measure(url, env).Some? && Scores(url, env).Some?
    ensures Scores(url, env).value == Row(Measure(url, env).value, url)
    ensures Extract(url, env).value == Label(Scores(url, env).value)
  {
  }

  lemma LabelShape(s: seq<Score>)
    requires |s| == 30
    ensures Label(s).Keys == set k | k in DefaultKeys
    ensures |Label(s)| == 30
    ensures forall k :: k in Label(s) ==> Label(s)[k] in {-1, 0, 1}
  {
    LabelKeys(s);
    DefaultKeyCount();
  }

  /** Each heuristic that reads the URL is filed under its own name, and the
      two that let a split error escape are filed with the score they return
      on a URL that splits. */
  lemma ExtractLive(url: string, env: Oracles)
    requires Extract(url, env).Some?
    ensures Https(url, env.hostOk).Some? && HttpsInDomain(url, env.hostOk).Some?
    ensures var m := Extract(url, env).value;
            && Get(m, "UsingIP") == UsingIp(url)
            && Get(m, "LongURL") == LongUrl(url)
            && Get(m, "ShortURL") == ShortUrl(url, env.hostOk)
            && Get(m, "Symbol@") == SymbolAt(url)
            && Get(m, "Redirecting//") == Redirecting(url)
            && Get(m, "PrefixSuffix-") == PrefixSuffix(url, env.tld)
            && Get(m, "SubDomains") == SubDomains(url, env.tld)
            && Get(m, "HTTPS") == Https(url, env.hostOk).value
            && Get(m, "NonStdPort") == NonStdPort(url, env.hostOk)
            && Get(m, "HTTPSDomainURL") == HttpsInDomain(url, env.hostOk).value
            && Get(m, "InfoEmail") == InfoEmail(url)
            && Get(m, "AbnormalURL") == AbnormalUrl(url)
  {
    ExtractIsLabel(url, env);
    var g := Measure(url, env).value;
    LabelRow(g, url);
    MeasureFields(url, env);
  }

  /** The names under which `Label` files the measured signals. */
  lemma LabelRow(g: Signals, url: string)
    ensures var m := Label(Row(g, url));
            && Get(m, "UsingIP") == g.usingIp && Get(m, "LongURL") == g.longUrl
            && Get(m, "ShortURL") == g.shortUrl && Get(m, "Symbol@") == g.symbolAt
            && Get(m, "Redirecting//") == g.redirecting && Get(m, "PrefixSuffix-") == g.prefixSuffix
            && Get(m, "SubDomains") == g.subDomains && Get(m, "HTTPS") == g.https
            && Get(m, "NonStdPort") == g.nonStdPort && Get(m, "HTTPSDomainURL") == g.httpsInDomain
            && Get(m, "InfoEmail") == g.infoEmail && Get(m, "AbnormalURL") == g.abnormalUrl
  {
    var s := Row(g, url);
    LabelAt(s, 0); LabelAt(s, 1); LabelAt(s, 2); LabelAt(s, 3);
    LabelAt(s, 4); LabelAt(s, 5); LabelAt(s, 6); LabelAt(s, 7);
    LabelAt(s, 10); LabelAt(s, 11); LabelAt(s, 16); LabelAt(s, 17);
    LiveKeyNames();
    RowLive(g, url);
  }

  /** The names of the twelve measured positions. */
  lemma LiveKeyNames()
    ensures && DefaultKeys[0] == "UsingIP" && DefaultKeys[1] == "LongURL"
            && DefaultKeys[2] == "ShortURL" && DefaultKeys[3] == "Symbol@"
    ensures && DefaultKeys[4] == "Redirecting//" && DefaultKeys[5] == "PrefixSuffix-"
            && DefaultKeys[6] == "SubDomains" && DefaultKeys[7] == "HTTPS"
    ensures && DefaultKeys[10] == "NonStdPort" && DefaultKeys[11] == "HTTPSDomainURL"
            && DefaultKeys[16] == "InfoEmail" && DefaultKeys[17] == "AbnormalURL"
  {
    KeyNamesA();
    KeyNamesB();
    KeyNamesC();
  }

  lemma KeyNamesA()
    ensures && DefaultKeys[0] == "UsingIP" && DefaultKeys[1] == "LongURL"
            && DefaultKeys[2] == "ShortURL" && DefaultKeys[3] == "Symbol@"
  {
  }

  lemma KeyNamesB()
    ensures && DefaultKeys[4] == "Redirecting//" && DefaultKeys[5] == "PrefixSuffix-"
            && DefaultKeys[6] == "SubDomains" && DefaultKeys[7] == "HTTPS"
  {
  }

  lemma KeyNamesC()
    ensures && DefaultKeys[10] == "NonStdPort" && DefaultKeys[11] == "HTTPSDomainURL"
            && DefaultKeys[16] == "InfoEmail" && DefaultKeys[17] == "AbnormalURL"
  {
  }

  /** Where `Row` puts the measured signals. */
  lemma RowLive(g: Signals, url: string)
    ensures var s := Row(g, url);
            && s[0] == g.usingIp && s[1] == g.longUrl && s[2] == g.shortUrl && s[3] == g.symbolAt
            && s[4] == g.redirecting && s[5] == g.prefixSuffix && s[6] == g.subDomains && s[7] == g.https
            && s[10] == g.nonStdPort && s[11] == g.httpsInDomain && s[16] == g.infoEmail && s[17] == g.abnormalUrl
  {
    var s := Row(g, url);
    assert s[0] == g.usingIp && s[1] == g.longUrl && s[2] == g.shortUrl && s[3] == g.symbolAt;
    assert s[4] == g.redirecting && s[5] == g.prefixSuffix && s[6] == g.subDomains && s[7] == g.https;
    assert s[10] == g.nonStdPort && s[11] == g.httpsInDomain;
  }

  lemma MeasureFields(url: string, env: Oracles)
    requires Measure(url, env).Some?
    ensures Https(url, env.hostOk).Some? && HttpsInDomain(url, env.hostOk).Some?
    ensures var g := Measure(url, env).value;
            && g.usingIp == UsingIp(url) && g.longUrl == LongUrl(url)
            && g.shortUrl == ShortUrl(url, env.hostOk) && g.symbolAt == SymbolAt(url)
            && g.redirecting == Redirecting(url) && g.prefixSuffix == PrefixSuffix(url, env.tld)
            && g.subDomains == SubDomains(url, env.tld) && g.https == Https(url, env.hostOk).value
            && g.nonStdPort == NonStdPort(url, env.hostOk) && g.httpsInDomain == HttpsInDomain(url, env.hostOk).value
            && g.infoEmail == InfoEmail(url) && g.abnormalUrl == AbnormalUrl(url)
  {
  }

  /** Flattening an extraction in the canonical order gives back the scores
      in the order the heuristics are listed. */
  lemma ExtractVectorAligned(url: string, env: Oracles)
    requires Extract(url, env).Some?
    ensures Vectorize(Extract(url, env).value, None) == Scores(url, env).value
  {
    LabelAligned(Scores(url, env).value);
  }

  /** `Label` binds each canonical name to the score at its position. */
  lemma LabelAligned(s: seq<Score>)
    requires |s| == 30
    ensures forall i :: 0 <= i < 30 ==> DefaultKeys[i] in Label(s) && Label(s)[DefaultKeys[i]] == s[i]
  {
    DefaultKeysDistinct();
  }

  lemma LabelAt(s: seq<Score>, i: int)
    requires |s| == 30 && 0 <= i < 30
    ensures Get(Label(s), DefaultKeys[i]) == s[i]
  {
    LabelAligned(s);
  }

  lemma LabelKeys(s: seq<Score>)
    requires |s| == 30
    ensures Label(s).Keys == set k | k in DefaultKeys
  {
  }

  lemma DefaultKeyCount()
    ensures |set k | k in DefaultKeys| == 30
  {
    DefaultKeysDistinct();
    DistinctSeqSetSize(DefaultKeys);
  }

  /** The placeholder heuristics contribute their constants to every
      extraction: 1 for the thirteen conservatively legitimate signals, 0
      for the five neutral ones. */
  lemma ExtractPlaceholders(url: string, env: Oracles)
    requires Extract(url, env).Some?
    ensures var m := Extract(url, env).value;
            && (forall i :: i in SafeSlots ==> 0 <= i < 30 && DefaultKeys[i] in m && m[DefaultKeys[i]] == 1)
            && (forall i :: i in NeutralSlots ==> 0 <= i < 30 && DefaultKeys[i] in m && m[DefaultKeys[i]] == 0)
  {
    ExtractIsLabel(url, env);
    var g := Measure(url, env).value;
    RowPlaceholders(g, url);
    LabelAligned(Row(g, url));
  }

  lemma RowPlaceholders(g: Signals, url: string)
    ensures forall i :: i in SafeSlots ==> 0 <= i < 30 && Row(g, url)[i] == 1
    ensures forall i :: i in NeutralSlots ==> 0 <= i < 30 && Row(g, url)[i] == 0
  {
  }

  /** Without an explicit order the canonical one is used. */
  lemma VectorizeDefault(d: FeatureMap)
    ensures Vectorize(d, None) == Vectorize(d, Some(DefaultKeys))
    ensures |Vectorize(d, None)| == 30
  {
  }

  /** Vectorizing is done name by name: the vector for two orders one after
      the other is the two vectors one after the other. */
  lemma VectorizeConcat(d: FeatureMap, a: seq<string>, b: seq<string>)
    ensures Vectorize(d, Some(a + b)) == Vectorize(d, Some(a)) + Vectorize(d, Some(b))
  {
    var v, va, vb := Vectorize(d, Some(a + b)), Vectorize(d, Some(a)), Vectorize(d, Some(b));
    assert forall i :: |a| <= i < |a| + |b| ==> (a + b)[i] == b[i - |a|];
    assert v == va + vb;
  }

  /** Two mappings give the same vector in an order exactly when they agree,
      through `get(k, 0)`, on every name of that order: nothing outside the
      order matters, and a missing name reads as a present 0. */
  lemma VectorizeAgree(d1: FeatureMap, d2: FeatureMap, keys: seq<string>)
    ensures Vectorize(d1, Some(keys)) == Vectorize(d2, Some(keys))
            <==> forall k :: k in keys ==> Get(d1, k) == Get(d2, k)
  {
    var v1, v2 := Vectorize(d1, Some(keys)), Vectorize(d2, Some(keys));
    if v1 == v2 {
      forall k | k in keys ensures Get(d1, k) == Get(d2, k) {
        var i :| 0 <= i < |keys| && keys[i] == k;
        assert v1[i] == v2[i];
      }
    }
  }

  /** Filing each name of a repetition-free order with the entry at its
      position and vectorizing in that order gives the entries back. */
  lemma {:induction false} VectorizeRoundTrip(keys: seq<string>, v: seq<int>)
    requires |keys| == |v|
    requires forall i, j :: 0 <= i < j < |keys| ==> keys[i] != keys[j]
    ensures Vectorize(map i | 0 <= i < |keys| :: keys[i] := v[i], Some(keys)) == v
  {
    var m := map i | 0 <= i < |keys| :: keys[i] := v[i];
    var w := Vectorize(m, Some(keys));
    forall i | 0 <= i < |keys| ensures w[i] == v[i] {
      assert keys[i] in m;
      var j :| 0 <= j < |keys| && keys[j] == keys[i] && m[keys[i]] == v[j];
      assert j == i;
    }
  }

  /** The round trip of a caller-supplied order: names in a different order
      come out in that order, and an unknown name comes out as 0. */
  lemma VectorizeExample()
    ensures Vectorize(map["UsingIP" := 1, "HTTPS" := -1], Some(["HTTPS", "UsingIP", "PageRank"])) == [-1, 1, 0]
  {
    var v := Vectorize(map["UsingIP" := 1, "HTTPS" := -1], Some(["HTTPS", "UsingIP", "PageRank"]));
    assert v[0] == -1 && v[1] == 1 && v[2] == 0;
  }

  /** A sequence without repetitions has as many distinct elements as entries. */
  lemma {:induction false} DistinctSeqSetSize(s: seq<string>)
    requires forall i, j :: 0 <= i < j < |s| ==> s[i] != s[j]
    ensures |set k | k in s| == |s|
    decreases |s|
  {
    if |s| > 0 {
      var t := s[..|s| - 1];
      DistinctSeqSetSize(t);
      assert (set k | k in s) == (set k | k in t) + {s[|s| - 1]};
      assert s[|s| - 1] !in (set k | k in t);
    }
  }

  // ---------------------------------------------------------------------
  // A total extraction

  /** The twelve URL heuristics with every `urlparse` error absorbed:
      `has_https` falls back to -1 (no usable scheme) and `https_in_domain`
      to 1 (no host to hold `https`), as the other split-based heuristics
      fall back to their safe values. */
  function MeasureTotal(url: string, env: Oracles): (g: Signals)
    ensures Measure(url, env).Some? ==> Measure(url, env).value == g
    ensures Parse(url, env.hostOk).Failure? ==> g.https == -1 && g.httpsInDomain == 1
  {
    Signals(
      UsingIp(url), LongUrl(url), ShortUrl(url, env.hostOk), SymbolAt(url),
      Redirecting(url), PrefixSuffix(url, env.tld), SubDomains(url, env.tld),
      match Https(url, env.hostOk) case Some(v) => v case None => -1,
      NonStdPort(url, env.hostOk),
      match HttpsInDomain(url, env.hostOk) case Some(v) => v case None => 1,
      InfoEmail(url), AbnormalUrl(url))
  }

  /** An extraction that never fails, and agrees with the source's
      extraction wherever that one completes. */
  function ExtractTotal(url: string, env: Oracles): (m: FeatureMap)
    ensures Extract(url, env).Some? ==> Extract(url, env).value == m
  {
    Label(Row(MeasureTotal(url, env), url))
  }

  /** The total extraction always files the 30 canonical names, and agrees
      with the source's extraction wherever that one completes. */
  lemma ExtractTotalAgrees(url: string, env: Oracles)
    ensures ExtractTotal(url, env).Keys == set k | k in DefaultKeys
    ensures |ExtractTotal(url, env)| == 30
    ensures forall k :: k in ExtractTotal(url, env) ==> ExtractTotal(url, env)[k] in {-1, 0, 1}
    ensures Extract(url, env).Some? ==> Extract(url, env).value == ExtractTotal(url, env)
  {
    LabelShape(Row(MeasureTotal(url, env), url));
  }

  /** Where the source's extraction fails, the total one reports no HTTPS
      scheme and no `https` in the host. */
  lemma ExtractTotalOnSplitError(url: string, env: Oracles)
    requires Parse(url, env.hostOk).Failure?
    ensures Get(ExtractTotal(url, env), "HTTPS") == -1
    ensures Get(ExtractTotal(url, env), "HTTPSDomainURL") == 1
  {
    LabelRow(MeasureTotal(url, env), url);
  }
}

=== FILE: heuristic_facts.dfy ===
/** Properties of the heuristics that relate several calls, or that say what
    a heuristic's answer depends on. */
module HeuristicFacts {
  import opened Wrappers
  import opened Text
  import opened UrlSplit
  import opened Patterns
  import opened Heuristics

  /** Without a `:` in the netloc the whole lower-cased netloc is the host
      `short_url` compares. */
  lemma ShortUrlPlainHost(url: string, hostOk: HostCheck)
    requires Parse(url, hostOk).Success?
    requires ':' !in Parse(url, hostOk).value.netloc
    ensures ShortUrl(url, hostOk) == -1 <==> Lower(Parse(url, hostOk).value.netloc) in Shorteners
  {
    PortlessHostPlain(Parse(url, hostOk).value.netloc);
  }

  /** A port after the host does not hide a shortener: `short_url` compares
      only the text before the first `:`. */
  lemma ShortUrlIgnoresPort(url: string, hostOk: HostCheck, host: string, port: string)
    requires Parse(url, hostOk).Success?
    requires Parse(url, hostOk).value.netloc == host + ":" + port
    requires ':' !in host
    ensures ShortUrl(url, hostOk) == -1 <==> Lower(host) in Shorteners
  {
    PortlessHostOf(host, port);
  }

  lemma PortlessHostPlain(n: string)
    requires ':' !in n
    ensures PortlessHost(n) == Lower(n)
  {
    assert ':' !in Lower(n);
  }

  lemma PortlessHostOf(host: string, port: string)
    requires ':' !in host
    ensures PortlessHost(host + ":" + port) == Lower(host)
  {
    var n := host + ":" + port;
    var l := Lower(n);
    var h := PortlessHost(n);
    LowerAppend(host, ":" + port);
    assert l[..|host|] == Lower(host);
    assert l[|host|] == ':';
    assert ':' !in Lower(host);
  }

  /** `u` begins with `w`, in any case, followed by `:`. */
  predicate SchemePrefix(u: string, w: string)
  {
    |u| > |w| && u[|w|] == ':' && forall j :: 0 <= j < |w| ==> LowerChar(u[j]) == w[j]
  }

  /** The scheme read off a URL is a given lower-case word exactly when the
      URL starts with that word, in any case, and a `:`. */
  lemma SchemeIs(u: string, w: string)
    requires |w| > 0 && forall j :: 0 <= j < |w| ==> 'a' <= w[j] <= 'z'
    ensures SplitScheme(u).0 == w <==> SchemePrefix(u, w)
  {
    var k := |w|;
    if SchemePrefix(u, w) {
      forall j | 0 <= j < k ensures IsAsciiAlpha(u[..k][j]) {
        assert LowerChar(u[j]) == w[j];
      }
      SplitSchemeAt(u, k);
      assert Lower(u[..k]) == w;
    }
  }

  /** `https_in_domain` looks at the host only: for a URL written
      `scheme://host path` the answer depends on the host alone, so an
      `https` scheme or an `https` in the path is not counted. */
  lemma HttpsInDomainHostOnly(url: string, hostOk: HostCheck, scheme: string, host: string, path: string)
    requires url == scheme + "://" + host + path
    requires ValidScheme(scheme) && Lower(scheme) == scheme
    requires PlainHost(host) && PlainTail(path)
    ensures HttpsInDomain(url, hostOk) == Some(if Contains(Lower(host), "https") then -1 else 1)
  {
    ParseAuthorityForm(url, hostOk, scheme, host, path);
  }

  /** The scheme `urlparse` reports is a given lower-case word exactly when
      the sanitized URL starts with that word, in any case, and a `:`. */
  lemma ParseSchemeIs(url: string, hostOk: HostCheck, w: string)
    requires Parse(url, hostOk).Success?
    requires |w| > 0 && forall j :: 0 <= j < |w| ==> 'a' <= w[j] <= 'z'
    ensures Parse(url, hostOk).value.scheme == w <==> SchemePrefix(Sanitize(url), w)
  {
    ParseParts(url, hostOk);
    SchemeIs(Sanitize(url), w);
  }

  /** `has_https` scores 1 exactly when the sanitized URL starts with
      `https:` in any case. */
  lemma HttpsByPrefix(url: string, hostOk: HostCheck)
    requires Parse(url, hostOk).Success?
    ensures Https(url, hostOk) == Some(1) <==> SchemePrefix(Sanitize(url), "https")
  {
    LowerWord("https");
    ParseSchemeIs(url, hostOk, "https");
  }

  /** `has_https` scores 0 exactly when the sanitized URL starts with
      `http:` in any case. */
  lemma HttpByPrefix(url: string, hostOk: HostCheck)
    requires Parse(url, hostOk).Success?
    ensures Https(url, hostOk) == Some(0) <==> SchemePrefix(Sanitize(url), "http")
  {
    LowerWord("http");
    ParseSchemeIs(url, hostOk, "http");
  }

  /** `http` and `https` are lower-case words. */
  lemma LowerWord(w: string)
    requires w == "http" || w == "https"
    ensures |w| > 0 && forall j :: 0 <= j < |w| ==> 'a' <= w[j] <= 'z'
  {
  }

  /** Without a `:` in the netloc no port can be read, so `non_std_port`
      scores 1. */
  lemma NonStdPortNoColon(url: string, hostOk: HostCheck)
    requires Parse(url, hostOk).Success?
    requires ':' !in Parse(url, hostOk).value.netloc
    ensures NonStdPort(url, hostOk) == 1
  {
    var n := Parse(url, hostOk).value.netloc;
    assert forall j :: !PortAt(n, j);
  }

  /** A netloc `host:digits` with two to five digits is judged by the
      number the digits spell: 1 for 80 and 443, -1 for any other. Leading
      zeros are read away, so `:0080` is port 80. */
  lemma NonStdPortOf(url: string, hostOk: HostCheck, host: string, ds: string)
    requires Parse(url, hostOk).Success?
    requires Parse(url, hostOk).value.netloc == host + ":" + ds
    requires ':' !in host
    requires 2 <= |ds| <= 5 && AllDigits(ds)
    ensures NonStdPort(url, hostOk) == (if DecimalValue(ds) == 80 || DecimalValue(ds) == 443 then 1 else -1)
  {
    var n := host + ":" + ds;
    var j := |host|;
    assert PortAt(n, j) by {
      assert n[j + 1] == ds[0] && n[j + 2] == ds[1];
    }
    forall i | 0 <= i < j ensures !PortAt(n, i) {
      assert n[i] == host[i];
    }
    PortSearchLeftmost(n, j);
    assert n[j + 1..] == ds;
    PortDigitsTail(n, j, ds);
  }

  /** A URL `scheme://host:digits/path` in plain form is judged by the port
      its digits spell. */
  lemma NonStdPortAuthority(url: string, hostOk: HostCheck, scheme: string, host: string, ds: string, path: string)
    requires url == scheme + "://" + host + ":" + ds + path
    requires ValidScheme(scheme) && Lower(scheme) == scheme
    requires PlainHost(host) && ':' !in host
    requires 2 <= |ds| <= 5 && AllDigits(ds)
    requires PlainTail(path)
    ensures NonStdPort(url, hostOk) == (if DecimalValue(ds) == 80 || DecimalValue(ds) == 443 then 1 else -1)
  {
    ParseHostPort(url, hostOk, scheme, host, ds, path);
    NonStdPortOf(url, hostOk, host, ds);
  }

  lemma ParseHostPort(url: string, hostOk: HostCheck, scheme: string, host: string, ds: string, path: string)
    requires url == scheme + "://" + host + ":" + ds + path
    requires ValidScheme(scheme) && Lower(scheme) == scheme
    requires PlainHost(host) && ':' !in host
    requires 2 <= |ds| <= 5 && AllDigits(ds)
    requires PlainTail(path)
    ensures Parse(url, hostOk).Success? && Parse(url, hostOk).value.netloc == host + ":" + ds
  {
    var n := host + ":" + ds;
    assert url == scheme + "://" + n + path;
    HostPortPlain(host, ds);
    ParseAuthorityForm(url, hostOk, scheme, n, path);
  }

  /** Appending `:digits` to a plain host keeps it plain. */
  lemma HostPortPlain(host: string, ds: string)
    requires PlainHost(host) && AllDigits(ds)
    ensures PlainHost(host + ":" + ds)
  {
    var n := host + ":" + ds;
    forall j | 0 <= j < |n|
      ensures !IsNetlocDelim(n[j]) && IsAscii(n[j]) && !IsUnsafe(n[j]) && n[j] != '[' && n[j] != ']'
    {
      if j < |host| {
        assert n[j] == host[j];
      } else if j > |host| {
        assert n[j] == ds[j - |host| - 1];
      }
    }
  }

  /** When the netloc ends in at most five digits after the `:`, PORT_RE
      captures all of them. */
  lemma PortDigitsTail(n: string, j: nat, ds: string)
    requires PortAt(n, j)
    requires n[j + 1..] == ds && |ds| <= 5 && AllDigits(ds)
    ensures PortDigits(n, j) == ds
  {
  }

  /** `abnormal_url` ignores case: lower-casing the URL first changes
      nothing. */
  lemma AbnormalUrlIgnoresCase(url: string)
    ensures AbnormalUrl(Lower(url)) == AbnormalUrl(url)
  {
    LowerIdempotent(url);
  }

  /** The substring tests only grow more suspicious as text is added around
      a URL: a -1 from `has_at_symbol` stays -1. */
  lemma SymbolPersists(pre: string, url: string, post: string)
    requires SymbolAt(url) == -1
    ensures SymbolAt(pre + url + post) == -1
  {
    var i :| 0 <= i < |url| && url[i] == '@';
    assert (pre + url + post)[|pre| + i] == '@';
  }

  /** Likewise for `info_email`. */
  lemma InfoEmailPersists(pre: string, url: string, post: string)
    requires InfoEmail(url) == -1
    ensures InfoEmail(pre + url + post) == -1
  {
    ContainsExtend(pre, url, post, "mailto:");
  }

  /** Likewise for `abnormal_url`, whose test is on the lower-cased URL. */
  lemma AbnormalPersists(pre: string, url: string, post: string)
    requires AbnormalUrl(url) == -1
    ensures AbnormalUrl(pre + url + post) == -1
  {
    var t :| t in SuspiciousTokens && Contains(Lower(url), t);
    LowerAppend(pre, url);
    LowerAppend(pre + url, post);
    ContainsExtend(Lower(pre), Lower(url), Lower(post), t);
  }

  /** Likewise for `redirecting_double_slash`: text in front only moves the
      last `//` further right, text behind can only add a later one. */
  lemma RedirectingPersists(pre: string, url: string, post: string)
    requires Redirecting(url) == -1
    ensures Redirecting(pre + url + post) == -1
  {
    var big := pre + url + post;
    var i :| i > 6 && OccursAt(url, "//", i);
    assert big[|pre| + i..|pre| + i + 2] == url[i..i + 2];
    assert OccursAt(big, "//", |pre| + i);
  }

  /** A longer URL never scores better on `long_url`. */
  lemma LongUrlMonotone(u: string, v: string)
    requires |u| <= |v|
    ensures LongUrl(v) <= LongUrl(u)
  {
  }

  /** The `//` of a scheme delimiter alone does not count as a redirect: a
      scheme of at most five characters puts it at index 6 or less. */
  lemma RedirectingSchemeOnly(scheme: string, rest: string)
    requires |scheme| <= 5 && '/' !in scheme
    requires forall i :: !OccursAt(rest, "//", i)
    requires rest == [] || rest[0] != '/'
    ensures Redirecting(scheme + "://" + rest) == 1
  {
    var url := scheme + "://" + rest;
    var k := |scheme| + 3;
    assert !OccursAt(url, "//", k - 1) by {
      if |rest| > 0 {
        assert url[k] == rest[0];
      }
    }
    forall i | i > 6 && OccursAt(url, "//", i) ensures false {
      assert url[i..i + 2] == rest[i - k..i - k + 2];
      assert OccursAt(rest, "//", i - k);
    }
  }
}

=== FILE: heuristics.dfy ===
/** The 30 heuristics of `ml_utils/feature_extractor.py`, one function each.
    A heuristic maps the raw URL to a score in {-1, 0, 1}: -1 suspicious,
    0 neutral, 1 legitimate. Those that call `urlparse` take the host check
    of `UrlSplit`; those that call `tldextract.extract` take the domain
    extractor below. */
module Heuristics {
  import opened Wrappers
  import opened Text
  import opened UrlSplit
  import opened Patterns

  type Score = x: int | -1 <= x <= 1

  /** What `tldextract.extract` returns: the labels before the registrable
      domain, the registrable label itself, and the public suffix. */
  datatype DomainParts = DomainParts(subdomain: string, domain: string, suffix: string)

  /** `tldextract.extract`, whose answer depends on the Public Suffix List:
      `None` stands for a call that raises. */
  type DomainExtractor = string -> Option<DomainParts>

  /** `SHORTENERS`: hosts of known URL-shortening services. */
  const Shorteners: set<string> := {
    "bit.ly", "goo.gl", "tinyurl.com", "ow.ly", "t.co", "bitly.com", "buff.ly",
    "adf.ly", "is.gd", "soo.gd", "s2r.co", "tiny.cc"
  }

  /** The tokens `abnormal_url` looks for, in its order. */
  const SuspiciousTokens: seq<string> :=
    ["login", "verify", "update", "secure", "confirm", "account", "bank", "password"]

  // ---------------------------------------------------------------------
  // Heuristics on the raw string

  /** `has_ip`: -1 when IP_RE matches. */
  function UsingIp(url: string): (r: Score)
    ensures r == -1 <==> IpReMatches(url)
    ensures r != 0
  {
    IpReSearchCorrect(url);
    if IpReSearch(url) then -1 else 1
  }

  /** `long_url` with its two thresholds (54 and 75 by default). */
  function LongUrl(url: string, short: int := 54, medium: int := 75): (r: Score)
    ensures r == 1 <==> |url| < short
    ensures r == 0 <==> short <= |url| <= medium
    ensures r == -1 <==> |url| >= short && |url| > medium
  {
    var l := |url|;
    if l < short then 1
    else if short <= l <= medium then 0
    else -1
  }

  /** `has_at_symbol`: -1 when `@` occurs anywhere. */
  function SymbolAt(url: string): (r: Score)
    ensures r == -1 <==> exists i :: 0 <= i < |url| && url[i] == '@'
    ensures r != 0
  {
    if Contains(url, "@") then
      var i :| OccursAt(url, "@", i);
      assert url[i] == url[i..i + 1][0];
      -1
    else
      assert forall i :: 0 <= i < |url| && url[i] == '@' ==> OccursAt(url, "@", i) by {
        forall i | 0 <= i < |url| && url[i] == '@' ensures OccursAt(url, "@", i) {
          assert url[i..i + 1] == [url[i]];
        }
      }
      1
  }

  /** `redirecting_double_slash`: -1 when the last `//` sits after index 6,
      that is, past the one a `http://` or `https://` scheme brings. */
  function Redirecting(url: string): (r: Score)
    ensures r == -1 <==> exists i :: i > 6 && OccursAt(url, "//", i)
    ensures r != 0
  {
    if RFind(url, "//") > 6 then -1 else 1
  }

  /** `info_email`: -1 when `mailto:` occurs (case-sensitively). */
  function InfoEmail(url: string): (r: Score)
    ensures r == -1 <==> exists i :: OccursAt(url, "mailto:", i)
    ensures r != 0
  {
    if Contains(url, "mailto:") then -1 else 1
  }

  /** Python's `any(t in s for t in tokens)`. */
  function AnyTokenIn(s: string, tokens: seq<string>): (b: bool)
    ensures b <==> exists k :: 0 <= k < |tokens| && Contains(s, tokens[k])
  {
    if |tokens| == 0 then false
    else Contains(s, tokens[0]) || AnyTokenIn(s, tokens[1..])
  }

  /** `abnormal_url`: -1 when the lower-cased URL holds a suspicious token. */
  function AbnormalUrl(url: string): (r: Score)
    ensures r == -1 <==> exists t :: t in SuspiciousTokens && Contains(Lower(url), t)
    ensures r != 0
  {
    if AnyTokenIn(Lower(url), SuspiciousTokens) then -1 else 1
  }

  // ---------------------------------------------------------------------
  // Heuristics on the parsed URL

  /** The host `short_url` compares: the lower-cased netloc cut at its first
      `:`, i.e. `netloc.lower().split(':')[0]`. */
  function PortlessHost(netloc: string): (h: string)
    ensures var l := Lower(netloc);
            |h| <= |l| && h == l[..|h|] && ':' !in h && (|h| == |l| || l[|h|] == ':')
  {
    var l := Lower(netloc);
    SplitHead(l, ':');
    Split(l, ':')[0]
  }

  /** `short_url`: -1 when the host is a known shortener; 1 when `urlparse`
      raises. */
  function ShortUrl(url: string, hostOk: HostCheck): (r: Score)
    ensures r == -1 <==>
      && Parse(url, hostOk).Success?
      && PortlessHost(Parse(url, hostOk).value.netloc) in Shorteners
    ensures r != 0
  {
    match Parse(url, hostOk)
    case Failure(_) => 1
    case Success(p) => if PortlessHost(p.netloc) in Shorteners then -1 else 1
  }

  /** `has_https`: 1 for the `https` scheme, 0 for `http`, -1 for any other
      or none. `None` when `urlparse` raises, which `has_https` does not
      catch. */
  function Https(url: string, hostOk: HostCheck): (r: Option<Score>)
    ensures r.None? <==> Parse(url, hostOk).Failure?
    ensures r == Some(1) <==> Parse(url, hostOk).Success? && Parse(url, hostOk).value.scheme == "https"
    ensures r == Some(0) <==> Parse(url, hostOk).Success? && Parse(url, hostOk).value.scheme == "http"
  {
    match Parse(url, hostOk)
    case Failure(_) => None
    case Success(p) =>
      // The scheme is already lower-cased by the split, so the source's
      // second `.lower()` changes nothing.
      Some(if p.scheme == "https" then 1 else if p.scheme == "http" then 0 else -1)
  }

  /** `https_in_domain`: -1 when `https` occurs in the lower-cased netloc.
      `None` when `urlparse` raises, which it does not catch. */
  function HttpsInDomain(url: string, hostOk: HostCheck): (r: Option<Score>)
    ensures r.None? <==> Parse(url, hostOk).Failure?
    ensures r == Some(-1) <==>
      Parse(url, hostOk).Success? && exists i :: OccursAt(Lower(Parse(url, hostOk).value.netloc), "https", i)
    ensures r != Some(0)
  {
    match Parse(url, hostOk)
    case Failure(_) => None
    case Success(p) => Some(if Contains(Lower(p.netloc), "https") then -1 else 1)
  }

  /** `non_std_port`: -1 when PORT_RE finds in the netloc a port other than
      80 and 443; 1 when it finds none or when `urlparse` raises. */
  function NonStdPort(url: string, hostOk: HostCheck): (r: Score)
    ensures r == -1 <==>
      && Parse(url, hostOk).Success?
      && var port := PortSearch(Parse(url, hostOk).value.netloc);
         port.Some? && port.value != 80 && port.value != 443
    ensures r != 0
  {
    match Parse(url, hostOk)
    case Failure(_) => 1
    case Success(p) =>
      match PortSearch(p.netloc)
      case None => 1
      case Some(port) => if port != 80 && port != 443 then -1 else 1
  }

  // ---------------------------------------------------------------------
  // Heuristics on the registrable domain

  /** `prefix_suffix_dash`: -1 when the registrable label contains `-`; 1 when
      the extraction raises. */
  function PrefixSuffix(url: string, tld: DomainExtractor): (r: Score)
    ensures r == -1 <==> tld(url).Some? && '-' in tld(url).value.domain
    ensures r != 0
  {
    match tld(url)
    case None => 1
    case Some(parts) =>
      if Contains(parts.domain, "-") then
        var i :| OccursAt(parts.domain, "-", i);
        assert parts.domain[i] == parts.domain[i..i + 1][0];
        -1
      else
        assert forall i :: 0 <= i < |parts.domain| && parts.domain[i] == '-' ==> OccursAt(parts.domain, "-", i) by {
          forall i | 0 <= i < |parts.domain| && parts.domain[i] == '-'
            ensures OccursAt(parts.domain, "-", i)
          {
            assert parts.domain[i..i + 1] == [parts.domain[i]];
          }
        }
        1
  }

  /** The subdomain count of `count_subdomains`: its dots, plus one when it is
      not empty. */
  function SubdomainCount(sub: string): nat
  {
    CountChar(sub, '.') + (if |sub| > 0 then 1 else 0)
  }

  /** `count_subdomains`: 1 for no subdomain, 0 for one label, -1 for more;
      0 when the extraction raises. */
  function SubDomains(url: string, tld: DomainExtractor): (r: Score)
    ensures tld(url).None? ==> r == 0
    ensures tld(url).Some? ==>
      var sub := tld(url).value.subdomain;
      && (r == 1 <==> sub == [])
      && (r == 0 <==> sub != [] && '.' !in sub)
      && (r == -1 <==> '.' in sub)
  {
    match tld(url)
    case None => 0
    case Some(parts) =>
      var n := SubdomainCount(parts.subdomain);
      CountCharZero(parts.subdomain, '.');
      if n == 0 then 1
      else if n == 1 then 0
      else -1
  }

  /** For a non-empty subdomain the count is the number of its dot-separated
      labels, `len(subdomain.split('.'))`. */
  lemma SubdomainCountIsLabelCount(sub: string)
    requires sub != []
    ensures SubdomainCount(sub) == |Split(sub, '.')|
  {
    SplitCount(sub, '.');
  }

  // ---------------------------------------------------------------------
  // Placeholders: signals the source cannot obtain offline

  /* Each placeholder ignores its URL and returns a fixed score: 1, the safe
     value, where a page or WHOIS lookup would be needed, and 0 for the
     traffic, ranking, forwarding and in-page link signals. */

  function DomainRegLen(url: string): (r: Score)
    ensures r == 1
  {
    1
  }

  function Favicon(url: string): (r: Score)
    ensures r == 1
  {
    1
  }

  function RequestUrl(url: string): (r: Score)
    ensures r == 1
  {
    1
  }

  function AnchorUrl(url: string): (r: Score)
    ensures r == 0
  {
    0
  }

  function LinksInScriptTags(url: string): (r: Score)
    ensures r == 0
  {
    0
  }

  function ServerFormHandler(url: string): (r: Score)
    ensures r == 1
  {
    1
  }

  function WebsiteForwarding(url: string): (r: Score)
    ensures r == 0
  {
    0
  }

  function StatusBarCust(url: string): (r: Score)
    ensures r == 1
  {
    1
  }

  function DisableRightClick(url: string): (r: Score)
    ensures r == 1
  {
    1
  }

  function UsingPopupWindow(url: string): (r: Score)
    ensures r == 1
  {
    1
  }

  function IframeRedirection(url: string): (r: Score)
    ensures r == 1
  {
    1
  }

  function AgeOfDomain(url: string): (r: Score)
    ensures r == 1
  {
    1
  }

  function DnsRecording(url: string): (r: Score)
    ensures r == 1
  {
    1
  }

  function WebsiteTraffic(url: string): (r: Score)
    ensures r == 0
  {
    0
  }

  function PageRank(url: string): (r: Score)
    ensures r == 0
  {
    0
  }

  function GoogleIndex(url: string): (r: Score)
    ensures r == 1
  {
    1
  }

  function LinksPointingToPage(url: string): (r: Score)
    ensures r == 1
  {
    1
  }

  function StatsReport(url: string): (r: Score)
    ensures r == 1
  {
    1
  }
}

=== FILE: patterns.dfy ===
/** The two regular expressions of the feature extractor, written as scanners
    and proved equal to a declarative reading of each pattern:

      IP_RE   = ^(?:http[s]?://)?(?:\d{1,3}\.){3}\d{1,3}(?:[:/]|$)
      PORT_RE = :([0-9]{2,5})      (searched for anywhere in the netloc)

    `\d` is read as an ASCII digit and `$` as the end of the string. */
module Patterns {
  import opened Wrappers
  import opened Text

  // ---------------------------------------------------------------------
  // IP_RE

  /** `s[i..j]` is one `\d{1,3}` group. */
  predicate Group(s: string, i: int, j: int)
  {
    DigitsBetween(s, i, j) && 1 <= j - i <= 3
  }

  /** What may follow the last group: `:`, `/` or the end of the string. */
  predicate Terminator(s: string, j: int)
  {
    0 <= j <= |s| && (j == |s| || s[j] == ':' || s[j] == '/')
  }

  /** Starting at `i`, four groups end at `e1 < e2 < e3 < e4`, a `.` follows
      each of the first three, and a terminator follows the fourth. */
  ghost predicate QuadEnds(s: string, i: int, e1: int, e2: int, e3: int, e4: int)
  {
    && Group(s, i, e1) && e1 < |s| && s[e1] == '.'
    && Group(s, e1 + 1, e2) && e2 < |s| && s[e2] == '.'
    && Group(s, e2 + 1, e3) && e3 < |s| && s[e3] == '.'
    && Group(s, e3 + 1, e4) && Terminator(s, e4)
  }

  /** The dotted-quad part of IP_RE matches `s` at index `i`. */
  ghost predicate DottedQuadAt(s: string, i: int)
  {
    exists e1, e2, e3, e4 :: QuadEnds(s, i, e1, e2, e3, e4)
  }

  predicate HasPrefix(s: string, p: string) { |p| <= |s| && s[..|p|] == p }

  /** The whole of IP_RE matches `url`: with the optional `http://` or
      `https://` prefix, or, when the rest fails after a prefix, without it. */
  ghost predicate IpReMatches(url: string)
  {
    || DottedQuadAt(url, 0)
    || (HasPrefix(url, "http://") && DottedQuadAt(url, 7))
    || (HasPrefix(url, "https://") && DottedQuadAt(url, 8))
  }

  /** Reads a group and its dot from `i`, giving the index after the dot. */
  function SkipGroupDot(s: string, i: nat): (r: Option<nat>)
    requires i <= |s|
    ensures r.Some? ==> Group(s, i, r.value - 1) && r.value <= |s| && s[r.value - 1] == '.'
  {
    var n := DigitRun(s, i);
    if 1 <= n <= 3 && i + n < |s| && s[i + n] == '.' then Some(i + n + 1) else None
  }

  /** Reads the final group from `i` and checks the terminator after it. */
  function FinalGroup(s: string, i: nat): (b: bool)
    requires i <= |s|
    ensures b ==> Group(s, i, i + DigitRun(s, i)) && Terminator(s, i + DigitRun(s, i))
  {
    var n := DigitRun(s, i);
    1 <= n <= 3 && Terminator(s, i + n)
  }

  /** The scanner for the dotted-quad part of IP_RE, from index `i`. */
  function MatchDottedQuad(s: string, i: nat): bool
    requires i <= |s|
  {
    match SkipGroupDot(s, i)
    case None => false
    case Some(i2) =>
      match SkipGroupDot(s, i2)
      case None => false
      case Some(i3) =>
        match SkipGroupDot(s, i3)
        case None => false
        case Some(i4) => FinalGroup(s, i4)
  }

  /** A group that ends at a dot is read as exactly that group. */
  lemma SkipGroupDotOf(s: string, i: nat, e: int)
    requires Group(s, i, e) && e < |s| && s[e] == '.'
    ensures SkipGroupDot(s, i) == Some(e + 1)
  {
    DigitRunOf(s, i, e);
  }

  /** The scanner accepts exactly at the indices where a dotted quad followed
      by `:`, `/` or the end starts: no 0-255 range check is made, and a group
      of four or more digits is refused. */
  lemma MatchDottedQuadCorrect(s: string, i: nat)
    requires i <= |s|
    ensures MatchDottedQuad(s, i) <==> DottedQuadAt(s, i)
  {
    if MatchDottedQuad(s, i) {
      MatchDottedQuadSound(s, i);
    }
    if DottedQuadAt(s, i) {
      var e1, e2, e3, e4 :| QuadEnds(s, i, e1, e2, e3, e4);
      MatchDottedQuadComplete(s, i, e1, e2, e3, e4);
    }
  }

  lemma MatchDottedQuadSound(s: string, i: nat)
    requires i <= |s|
    requires MatchDottedQuad(s, i)
    ensures DottedQuadAt(s, i)
  {
    var i2 := SkipGroupDot(s, i).value;
    var i3 := SkipGroupDot(s, i2).value;
    var i4 := SkipGroupDot(s, i3).value;
    assert QuadEnds(s, i, i2 - 1, i3 - 1, i4 - 1, i4 + DigitRun(s, i4));
  }

  lemma MatchDottedQuadComplete(s: string, i: nat, e1: int, e2: int, e3: int, e4: int)
    requires QuadEnds(s, i, e1, e2, e3, e4)
    ensures MatchDottedQuad(s, i)
  {
    SkipGroupDotOf(s, i, e1);
    SkipGroupDotOf(s, e1 + 1, e2);
    SkipGroupDotOf(s, e2 + 1, e3);
    FinalGroupOf(s, e3 + 1, e4);
    assert MatchDottedQuad(s, i) == FinalGroup(s, e3 + 1);
  }

  /** A last group that ends at a terminator is read as exactly that group. */
  lemma FinalGroupOf(s: string, i: nat, e: int)
    requires Group(s, i, e) && Terminator(s, e)
    ensures FinalGroup(s, i)
  {
    DigitRunOf(s, i, e);
  }

  /** `IP_RE.search(url)` finds a match; `^` anchors it at the start. */
  function IpReSearch(url: string): bool
  {
    || MatchDottedQuad(url, 0)
    || (HasPrefix(url, "http://") && MatchDottedQuad(url, 7))
    || (HasPrefix(url, "https://") && MatchDottedQuad(url, 8))
  }

  /** The search succeeds exactly when IP_RE, read declaratively, matches. */
  lemma IpReSearchCorrect(url: string)
    ensures IpReSearch(url) <==> IpReMatches(url)
  {
    MatchDottedQuadCorrect(url, 0);
    if |url| >= 7 {
      MatchDottedQuadCorrect(url, 7);
    }
    if |url| >= 8 {
      MatchDottedQuadCorrect(url, 8);
    }
  }

  // ---------------------------------------------------------------------
  // PORT_RE

  /** PORT_RE can match at index `j`: a `:` followed by at least two digits. */
  predicate PortAt(n: string, j: int)
  {
    0 <= j && j + 2 < |n| && n[j] == ':' && IsDigit(n[j + 1]) && IsDigit(n[j + 2])
  }

  /** The leftmost index from `k` on where PORT_RE matches, as `search` scans. */
  function FindPortFrom(n: string, k: nat): (r: Option<nat>)
    ensures r.None? ==> forall j :: k <= j ==> !PortAt(n, j)
    ensures r.Some? ==> k <= r.value && PortAt(n, r.value)
                        && forall j :: k <= j < r.value ==> !PortAt(n, j)
    decreases |n| - k
  {
    if k + 2 >= |n| then None
    else if PortAt(n, k) then Some(k)
    else FindPortFrom(n, k + 1)
  }

  /** The digits PORT_RE captures at a match: the run after the `:`, cut at
      five (the repetition is greedy). */
  function PortDigits(n: string, j: nat): (ds: string)
    requires PortAt(n, j)
    ensures 2 <= |ds| <= 5 && AllDigits(ds)
    ensures j + 1 + |ds| <= |n| && ds == n[j + 1..j + 1 + |ds|]
    ensures |ds| == 5 || j + 1 + |ds| == |n| || !IsDigit(n[j + 1 + |ds|])
  {
    var run := DigitRun(n, j + 1);
    var len := if run < 5 then run else 5;
    n[j + 1..j + 1 + len]
  }

  /** `PORT_RE.search(netloc)` and `int(m.group(1))`: the port number found
      in the netloc, if any. */
  function PortSearch(n: string): (r: Option<nat>)
    ensures r.None? <==> forall j :: !PortAt(n, j)
    ensures r.Some? ==> r.value < 100000
  {
    match FindPortFrom(n, 0)
    case None => None
    case Some(j) =>
      var ds := PortDigits(n, j);
      DecimalBound(ds);
      assert Pow10(|ds|) <= 100000 by {
        assert Pow10(5) == 100000;
        if |ds| == 2 {} else if |ds| == 3 {} else if |ds| == 4 {}
      }
      Some(DecimalValue(ds))
  }

  /** A `:` followed by fewer than two digits does not stop the search: the
      port is read at the first `:` that has two digits after it. */
  lemma PortSearchLeftmost(n: string, j: nat)
    requires PortAt(n, j)
    requires forall i :: 0 <= i < j ==> !PortAt(n, i)
    ensures PortSearch(n) == Some(DecimalValue(PortDigits(n, j)))
  {
  }
}

=== FILE: text.dfy ===
/** Character classes and the handful of Python `str` operations the feature
    extractor relies on (`in`, `rfind`, `find`, `count`, `split`, `lower`),
    stated over `seq<char>`. Only ASCII case mapping is modelled. */
module Text {

  predicate IsDigit(c: char) { '0' <= c <= '9' }

  predicate IsAsciiAlpha(c: char) { 'a' <= c <= 'z' || 'A' <= c <= 'Z' }

  predicate IsAsciiUpper(c: char) { 'A' <= c <= 'Z' }

  /** ASCII lower-casing of one character; every other character is kept. */
  function LowerChar(c: char): char
  {
    if IsAsciiUpper(c) then (c as int + 32) as char else c
  }

  /** `s.lower()` restricted to ASCII letters. */
  function Lower(s: string): (r: string)
    ensures |r| == |s|
    ensures forall i :: 0 <= i < |s| ==> r[i] == LowerChar(s[i])
  {
    seq(|s|, i requires 0 <= i < |s| => LowerChar(s[i]))
  }

  /** Lower-casing leaves no upper-case letter behind, so a second pass is the
      identity: the lower-cased tests of the extractor ignore case entirely. */
  lemma LowerIdempotent(s: string)
    ensures forall i :: 0 <= i < |s| ==> !IsAsciiUpper(Lower(s)[i])
    ensures Lower(Lower(s)) == Lower(s)
  {
  }

  /** Lower-casing distributes over concatenation. */
  lemma LowerAppend(s: string, t: string)
    ensures Lower(s + t) == Lower(s) + Lower(t)
  {
  }

  /** `t` occurs in `s` at index `i`. */
  predicate OccursAt(s: string, t: string, i: int)
  {
    0 <= i && i + |t| <= |s| && s[i..i + |t|] == t
  }

  /** Python's `t in s` for strings, searching from index `k` onwards. */
  function ContainsFrom(s: string, t: string, k: nat): (b: bool)
    ensures b <==> exists i :: k <= i && OccursAt(s, t, i)
    decreases |s| - k
  {
    if k + |t| > |s| then false
    else if OccursAt(s, t, k) then true
    else ContainsFrom(s, t, k + 1)
  }

  /** Python's `t in s` for strings: some index carries an occurrence. */
  function Contains(s: string, t: string): (b: bool)
    ensures b <==> exists i :: OccursAt(s, t, i)
  {
    ContainsFrom(s, t, 0)
  }

  /** A substring found in `s` is still found after text is added on either
      side: the substring heuristics can only become more suspicious as a URL
      grows. */
  lemma ContainsExtend(pre: string, s: string, post: string, t: string)
    requires Contains(s, t)
    ensures Contains(pre + s + post, t)
  {
    var i :| OccursAt(s, t, i);
    var u := pre + s + post;
    assert u[|pre| + i..|pre| + i + |t|] == s[i..i + |t|];
    assert OccursAt(u, t, |pre| + i);
  }

  /** Highest occurrence of `t` in `s` at an index at most `k`, or -1. */
  function RFindAtMost(s: string, t: string, k: int): (r: int)
    ensures r == -1 || (0 <= r <= k && OccursAt(s, t, r))
    ensures forall i :: r < i <= k ==> !OccursAt(s, t, i)
    decreases k + 1
  {
    if k < 0 then -1
    else if OccursAt(s, t, k) then k
    else RFindAtMost(s, t, k - 1)
  }

  /** Python's `s.rfind(t)`: the index of the last occurrence, -1 if none. */
  function RFind(s: string, t: string): (r: int)
    ensures r == -1 <==> forall i :: !OccursAt(s, t, i)
    ensures r != -1 ==> OccursAt(s, t, r) && forall i :: r < i ==> !OccursAt(s, t, i)
  {
    RFindAtMost(s, t, |s| - |t|)
  }

  /** Python's `s.find(c)` for one character: first index of `c`, -1 if none. */
  function FindChar(s: string, c: char): (r: int)
    ensures r == -1 <==> c !in s
    ensures r != -1 ==> 0 <= r < |s| && s[r] == c && c !in s[..r]
  {
    if |s| == 0 then -1
    else if s[0] == c then 0
    else
      var k := FindChar(s[1..], c);
      if k == -1 then -1
      else
        assert s[..k + 1] == [s[0]] + s[1..][..k];
        k + 1
  }

  /** Python's `s.count(c)` for one character. */
  function CountChar(s: string, c: char): nat
  {
    if |s| == 0 then 0 else (if s[0] == c then 1 else 0) + CountChar(s[1..], c)
  }

  lemma {:induction false} CountCharAppend(s: string, t: string, c: char)
    ensures CountChar(s + t, c) == CountChar(s, c) + CountChar(t, c)
    decreases |s|
  {
    if |s| == 0 {
      assert s + t == t;
    } else {
      assert (s + t)[1..] == s[1..] + t;
      CountCharAppend(s[1..], t, c);
    }
  }

  /** A string without `c` counts no `c`. */
  lemma {:induction false} CountCharAbsent(s: string, c: char)
    requires c !in s
    ensures CountChar(s, c) == 0
    decreases |s|
  {
    if |s| > 0 {
      assert c !in s[1..] by {
        forall i | 0 <= i < |s[1..]| ensures s[1..][i] != c {
          assert s[1..][i] == s[i + 1];
        }
      }
      CountCharAbsent(s[1..], c);
    }
  }

  /** No `c` is counted exactly when `c` does not occur. */
  lemma {:induction false} CountCharZero(s: string, c: char)
    ensures CountChar(s, c) == 0 <==> c !in s
    decreases |s|
  {
    if |s| > 0 {
      CountCharZero(s[1..], c);
      assert s == [s[0]] + s[1..];
    }
  }

  /** Python's `s.split(c)`: the pieces between occurrences of `c`. */
  function Split(s: string, c: char): (parts: seq<string>)
    ensures |parts| >= 1
    ensures forall p :: p in parts ==> c !in p
    decreases |s|
  {
    var k := FindChar(s, c);
    if k == -1 then [s] else [s[..k]] + Split(s[k + 1..], c)
  }

  /** `s.split(c)[0]` is the text before the first `c`, or all of `s`. */
  lemma SplitHead(s: string, c: char)
    ensures FindChar(s, c) == -1 ==> Split(s, c)[0] == s
    ensures FindChar(s, c) != -1 ==> Split(s, c)[0] == s[..FindChar(s, c)]
  {
  }

  /** `s.split(c)` yields one more piece than there are `c`s in `s`. */
  lemma {:induction false} SplitCount(s: string, c: char)
    ensures |Split(s, c)| == CountChar(s, c) + 1
    decreases |s|
  {
    var k := FindChar(s, c);
    if k == -1 {
      CountCharAbsent(s, c);
    } else {
      assert s == s[..k] + ([c] + s[k + 1..]);
      CountCharAppend(s[..k], [c] + s[k + 1..], c);
      CountCharAbsent(s[..k], c);
      assert ([c] + s[k + 1..])[1..] == s[k + 1..];
      SplitCount(s[k + 1..], c);
    }
  }

  predicate AllDigits(s: string) { forall i :: 0 <= i < |s| ==> IsDigit(s[i]) }

  /** Every character of `s` from `i` up to (not including) `j` is a digit. */
  predicate DigitsBetween(s: string, i: int, j: int)
  {
    0 <= i <= j <= |s| && forall k :: i <= k < j ==> IsDigit(s[k])
  }

  /** Length of the run of ASCII digits in `s` starting at index `i`. */
  function DigitRun(s: string, i: nat): (n: nat)
    requires i <= |s|
    ensures DigitsBetween(s, i, i + n)
    ensures i + n == |s| || !IsDigit(s[i + n])
    decreases |s| - i
  {
    if i < |s| && IsDigit(s[i]) then 1 + DigitRun(s, i + 1) else 0
  }

  /** A digit run that ends at a non-digit (or at the end) is exactly the run
      the scanner reads: it cannot be read longer or shorter. */
  lemma {:induction false} DigitRunOf(s: string, i: nat, j: nat)
    requires DigitsBetween(s, i, j)
    requires j == |s| || !IsDigit(s[j])
    ensures DigitRun(s, i) == j - i
    decreases j - i
  {
    if i < j {
      DigitRunOf(s, i + 1, j);
    }
  }

  /** Python's `int(ds)` for a string of ASCII digits. */
  function DecimalValue(ds: string): (v: nat)
    requires AllDigits(ds)
    decreases |ds|
  {
    if |ds| == 0 then 0
    else 10 * DecimalValue(ds[..|ds| - 1]) + (ds[|ds| - 1] as int - '0' as int)
  }

  /** Leading zeros do not change the value, as `int("0080") == 80`. */
  lemma {:induction false} DecimalLeadingZero(ds: string)
    requires AllDigits(ds)
    ensures DecimalValue("0" + ds) == DecimalValue(ds)
    decreases |ds|
  {
    if |ds| > 0 {
      var z := "0" + ds;
      assert z[..|z| - 1] == "0" + ds[..|ds| - 1];
      DecimalLeadingZero(ds[..|ds| - 1]);
    }
  }

  function Pow10(n: nat): nat { if n == 0 then 1 else 10 * Pow10(n - 1) }

  /** A value read from `n` digits is below `10^n`. */
  lemma {:induction false} DecimalBound(ds: string)
    requires AllDigits(ds)
    ensures DecimalValue(ds) < Pow10(|ds|)
    decreases |ds|
  {
    if |ds| > 0 {
      DecimalBound(ds[..|ds| - 1]);
    }
  }
}

=== FILE: url_split.dfy ===
/** The part of Python's `urllib.parse.urlparse` that the feature extractor
    reads: the scheme and the network location ("netloc", the authority of
    section 3.2 of RFC 3986), following CPython 3.12's `urlsplit`.

    The validation `urlsplit` delegates to other library code -- the check of a
    bracketed host with the `ipaddress` module and the NFKC check of a
    non-ASCII netloc -- is the parameter `hostOk`, consulted exactly when the
    library consults that code. */
module UrlSplit {
  import opened Wrappers
  import opened Text

  /** The pieces of a split URL: the lower-cased scheme (empty when there is
      none), whether a `//` authority was present, the netloc, and the rest
      (path, parameters, query and fragment, unsplit). */
  datatype Parts = Parts(scheme: string, authority: bool, netloc: string, tail: string)

  /** The two ways `urlsplit` raises `ValueError` on the netloc. */
  datatype ParseError =
    | InvalidIPv6Url   // one of `[` and `]` without the other
    | NetlocRejected   // refused by the bracketed-host or NFKC check

  /** Decides, as the library code outside this model does, whether a netloc
      carrying brackets or non-ASCII characters is acceptable. */
  type HostCheck = string -> bool

  /** C0 control characters and space, which `urlsplit` strips from the front. */
  predicate IsC0OrSpace(c: char) { c <= ' ' }

  /** Tab, carriage return and line feed, which `urlsplit` deletes everywhere. */
  predicate IsUnsafe(c: char) { c == '\t' || c == '\r' || c == '\n' }

  /** `lstrip` of C0 controls and space. */
  function LStripC0(s: string): string
  {
    if |s| > 0 && IsC0OrSpace(s[0]) then LStripC0(s[1..]) else s
  }

  /** What is stripped is a run of blanks at the front, and what is left
      starts with a character that is not one. */
  lemma {:induction false} LStripC0Suffix(s: string)
    ensures var r := LStripC0(s);
            && |r| <= |s| && r == s[|s| - |r|..]
            && (forall i :: 0 <= i < |s| - |r| ==> IsC0OrSpace(s[i]))
            && (r == [] || !IsC0OrSpace(r[0]))
    decreases |s|
  {
    if |s| > 0 && IsC0OrSpace(s[0]) {
      LStripC0Suffix(s[1..]);
      var r := LStripC0(s[1..]);
      assert s[1..][|s| - 1 - |r|..] == s[|s| - |r|..];
      forall i | 0 <= i < |s| - |r| ensures IsC0OrSpace(s[i]) {
        if i > 0 {
          assert s[i] == s[1..][i - 1];
        }
      }
    }
  }

  /** The deletion of every tab, CR and LF. */
  function RemoveUnsafe(s: string): string
  {
    if |s| == 0 then []
    else (if IsUnsafe(s[0]) then [] else [s[0]]) + RemoveUnsafe(s[1..])
  }

  /** The deletion keeps exactly the characters that are not tab, CR or LF,
      and leaves a string without them as it is. */
  lemma {:induction false} RemoveUnsafeChars(s: string)
    ensures forall c :: c in RemoveUnsafe(s) <==> c in s && !IsUnsafe(c)
    ensures (forall c :: c in s ==> !IsUnsafe(c)) ==> RemoveUnsafe(s) == s
    decreases |s|
  {
    if |s| > 0 {
      RemoveUnsafeChars(s[1..]);
      assert s == [s[0]] + s[1..];
    }
  }

  /** The string `urlsplit` actually splits: leading C0 controls and spaces
      stripped, then every tab, CR and LF removed. */
  function Sanitize(url: string): string
  {
    RemoveUnsafe(LStripC0(url))
  }

  /** Sanitizing drops a run of blanks from the front, then deletes every
      tab, CR and LF from what follows and keeps the rest in order
      (`RemoveUnsafeAppend`). No blank is left at the front. */
  lemma SanitizeChars(url: string)
    ensures var k := |url| - |LStripC0(url)|;
            && 0 <= k <= |url|
            && (forall i :: 0 <= i < k ==> IsC0OrSpace(url[i]))
            && (k == |url| || !IsC0OrSpace(url[k]))
            && Sanitize(url) == RemoveUnsafe(url[k..])
    ensures forall c :: c in Sanitize(url) ==> c in url && !IsUnsafe(c)
    ensures Sanitize(url) == [] || !IsC0OrSpace(Sanitize(url)[0])
  {
    var s := LStripC0(url);
    LStripC0Suffix(url);
    RemoveUnsafeChars(s);
    assert forall c :: c in s ==> c in url;
    var u := Sanitize(url);
    if u != [] {
      assert u[0] in s;
      RemoveUnsafeHead(s);
    }
  }

  /** The deletion works one character at a time: it distributes over
      concatenation and keeps a single character unless it is a tab, CR or
      LF. So the result is the input's safe characters in their order. */
  lemma {:induction false} RemoveUnsafeAppend(a: string, b: string)
    ensures RemoveUnsafe(a + b) == RemoveUnsafe(a) + RemoveUnsafe(b)
    ensures |a| == 1 ==> RemoveUnsafe(a) == (if IsUnsafe(a[0]) then [] else a)
    decreases |a|
  {
    if |a| > 0 {
      RemoveUnsafeAppend(a[1..], b);
      assert (a + b)[1..] == a[1..] + b;
    } else {
      assert a + b == b;
    }
  }

  /** The first kept character is the first character that is not a tab, CR
      or LF; after a strip it is therefore not a blank. */
  lemma {:induction false} RemoveUnsafeHead(s: string)
    requires s == [] || !IsC0OrSpace(s[0])
    ensures RemoveUnsafe(s) == [] || !IsC0OrSpace(RemoveUnsafe(s)[0])
  {
    if |s| > 0 {
      assert !IsUnsafe(s[0]);
    }
  }

  /** A URL already free of leading blanks and of tab, CR and LF is split as
      it stands. */
  lemma SanitizeClean(url: string)
    requires url == [] || !IsC0OrSpace(url[0])
    requires forall c :: c in url ==> !IsUnsafe(c)
    ensures Sanitize(url) == url
  {
    RemoveUnsafeChars(url);
  }

  /** `scheme_chars` of `urllib.parse`: ASCII letters, digits, `+`, `-`, `.`. */
  predicate IsSchemeChar(c: char)
  {
    IsAsciiAlpha(c) || IsDigit(c) || c == '+' || c == '-' || c == '.'
  }

  /** A scheme as section 3.1 of RFC 3986 writes it: a letter, then letters,
      digits, `+`, `-` or `.`. */
  predicate ValidScheme(s: string)
  {
    |s| > 0 && IsAsciiAlpha(s[0]) && forall i :: 0 <= i < |s| ==> IsSchemeChar(s[i])
  }

  /** Splits off the scheme at the first `:` when everything before it is a
      valid scheme; otherwise there is no scheme and nothing is consumed. */
  function SplitScheme(u: string): (r: (string, string))
    ensures r.0 != [] ==>
      && |r.0| < |u| && u[|r.0|] == ':'
      && ValidScheme(u[..|r.0|])
      && r.0 == Lower(u[..|r.0|])
      && r.1 == u[|r.0| + 1..]
    ensures r.0 == [] ==>
      && r.1 == u
      && forall i :: 0 <= i < |u| && u[i] == ':' ==> !ValidScheme(u[..i])
  {
    var i := FindChar(u, ':');
    if i > 0 && ValidScheme(u[..i]) then (Lower(u[..i]), u[i + 1..])
    else ("", u)
  }

  predicate IsNetlocDelim(c: char) { c == '/' || c == '?' || c == '#' }

  /** Index of the first `/`, `?` or `#`, or the length when there is none. */
  function FirstDelim(s: string): (k: nat)
    ensures k <= |s|
    ensures forall j :: 0 <= j < k ==> !IsNetlocDelim(s[j])
    ensures k == |s| || IsNetlocDelim(s[k])
  {
    if |s| == 0 || IsNetlocDelim(s[0]) then 0 else 1 + FirstDelim(s[1..])
  }

  /** After the scheme: a leading `//` opens an authority that runs to the
      first `/`, `?` or `#`. */
  function SplitNetloc(rest: string): (r: (bool, string, string))
    ensures r.0 <==> |rest| >= 2 && rest[..2] == "//"
    ensures r.0 ==> rest == "//" + r.1 + r.2
    ensures !r.0 ==> r.1 == [] && r.2 == rest
    ensures forall j :: 0 <= j < |r.1| ==> !IsNetlocDelim(r.1[j])
    ensures r.2 == [] || !r.0 || IsNetlocDelim(r.2[0])
  {
    if |rest| >= 2 && rest[..2] == "//" then
      var after := rest[2..];
      var k := FirstDelim(after);
      assert rest == "//" + after[..k] + after[k..];
      (true, after[..k], after[k..])
    else (false, [], rest)
  }

  /** One of the brackets appears without the other. */
  predicate Unbalanced(net: string)
  {
    ('[' in net && ']' !in net) || (']' in net && '[' !in net)
  }

  predicate IsAscii(c: char) { c as int < 128 }

  /** The netloc is one the library hands to further validation: it holds
      both brackets, or a character outside ASCII. */
  predicate NeedsHostCheck(net: string)
  {
    ('[' in net && ']' in net) || exists c :: c in net && !IsAscii(c)
  }

  /** `urlparse(url)` reduced to the parts the extractor reads. */
  function Parse(url: string, hostOk: HostCheck): (r: Result<Parts, ParseError>)
    ensures r.Failure? ==> (r.error == InvalidIPv6Url <==> Unbalanced(SplitNetloc(SplitScheme(Sanitize(url)).1).1))
    ensures r.Success? ==> !r.value.authority ==> r.value.netloc == []
    ensures r.Success? ==> forall j :: 0 <= j < |r.value.netloc| ==> !IsNetlocDelim(r.value.netloc[j])
    ensures r.Success? ==> !Unbalanced(r.value.netloc)
    ensures r.Success? && NeedsHostCheck(r.value.netloc) ==> hostOk(r.value.netloc)
  {
    var r := SplitScheme(Sanitize(url));
    var n := SplitNetloc(r.1);
    if n.0 && Unbalanced(n.1) then Failure(InvalidIPv6Url)
    else if n.0 && NeedsHostCheck(n.1) && !hostOk(n.1) then Failure(NetlocRejected)
    else Success(Parts(r.0, n.0, n.1, n.2))
  }

  /** Reassembles a split URL, as `urlunsplit` would for these parts. */
  function Unsplit(p: Parts): string
  {
    (if p.scheme == [] then [] else p.scheme + ":")
    + (if p.authority then "//" + p.netloc else [])
    + p.tail
  }

  /** The scheme, its `:` and the remainder give back the URL with the
      scheme lower-cased. */
  lemma SplitSchemeRoundTrip(u: string)
    ensures var r := SplitScheme(u);
            var k := if r.0 == [] then 0 else |r.0| + 1;
            k <= |u| && (if r.0 == [] then [] else r.0 + ":") + r.1 == Lower(u[..k]) + u[k..]
  {
    var r := SplitScheme(u);
    if r.0 != [] {
      var i := |r.0|;
      assert u[..i + 1] == u[..i] + [':'];
      LowerAppend(u[..i], [':']);
      assert u[i + 1..] == r.1;
    } else {
      assert u[..0] == [];
    }
  }

  /** Splitting loses nothing but the case of the scheme: putting the parts
      back together gives the sanitized URL with its scheme lower-cased. */
  lemma ParseRoundTrip(url: string, hostOk: HostCheck)
    requires Parse(url, hostOk).Success?
    ensures var u := Sanitize(url);
            var p := Parse(url, hostOk).value;
            var k := if p.scheme == [] then 0 else |p.scheme| + 1;
            k <= |u| && Unsplit(p) == Lower(u[..k]) + u[k..]
  {
    ParseParts(url, hostOk);
    UnsplitSplit(Sanitize(url));
  }

  /** A successful split is the scheme split followed by the netloc split. */
  lemma ParseParts(url: string, hostOk: HostCheck)
    requires Parse(url, hostOk).Success?
    ensures var r := SplitScheme(Sanitize(url));
            var n := SplitNetloc(r.1);
            Parse(url, hostOk).value == Parts(r.0, n.0, n.1, n.2)
  {
  }

  lemma UnsplitSplit(u: string)
    ensures var r := SplitScheme(u);
            var n := SplitNetloc(r.1);
            var k := if r.0 == [] then 0 else |r.0| + 1;
            k <= |u| && Unsplit(Parts(r.0, n.0, n.1, n.2)) == Lower(u[..k]) + u[k..]
  {
    var r := SplitScheme(u);
    var n := SplitNetloc(r.1);
    SplitNetlocRoundTrip(r.1);
    SplitSchemeRoundTrip(u);
    UnsplitAssoc(Parts(r.0, n.0, n.1, n.2));
  }

  /** The netloc split loses nothing: `//`, the netloc and the rest give
      back the text after the scheme. */
  lemma SplitNetlocRoundTrip(rest: string)
    ensures var n := SplitNetloc(rest);
            (if n.0 then "//" + n.1 else []) + n.2 == rest
  {
  }

  lemma UnsplitAssoc(p: Parts)
    ensures Unsplit(p) == (if p.scheme == [] then [] else p.scheme + ":")
                          + ((if p.authority then "//" + p.netloc else []) + p.tail)
  {
  }

  /** A URL whose text has no bracket and no non-ASCII character always
      splits: parse failure needs one of those. */
  lemma ParsePlainSucceeds(url: string, hostOk: HostCheck)
    requires '[' !in url && ']' !in url
    requires forall c :: c in url ==> IsAscii(c)
    ensures Parse(url, hostOk).Success?
  {
    var u := Sanitize(url);
    SanitizeChars(url);
    NetlocFromText(u);
    var net := SplitNetloc(SplitScheme(u).1).1;
    assert !Unbalanced(net) && !NeedsHostCheck(net);
  }

  /** Every character of the netloc comes from the text it was split from. */
  lemma NetlocFromText(u: string)
    ensures forall c :: c in SplitNetloc(SplitScheme(u).1).1 ==> c in u
  {
    var rest := SplitScheme(u).1;
    var n := SplitNetloc(rest);
    assert forall c :: c in rest ==> c in u;
    if n.0 {
      assert rest == "//" + n.1 + n.2;
      assert forall c :: c in n.1 ==> c in rest;
    }
  }

  /** Without a `:` nothing is taken as the scheme: `urlparse` reports an
      empty scheme, so the empty string has none. */
  lemma NoColonNoScheme(url: string, hostOk: HostCheck)
    requires ':' !in url
    requires Parse(url, hostOk).Success?
    ensures Parse(url, hostOk).value.scheme == []
  {
    SanitizeChars(url);
  }

  /** A host the split hands back untouched and unchecked: no delimiter, no
      tab, CR or LF, no bracket and nothing outside ASCII. */
  predicate PlainHost(host: string)
  {
    && (forall j :: 0 <= j < |host| ==> !IsNetlocDelim(host[j]) && IsAscii(host[j]) && !IsUnsafe(host[j]))
    && '[' !in host && ']' !in host
  }

  /** What may follow the host: nothing, or text that starts at a delimiter
      and holds no tab, CR or LF. */
  predicate PlainTail(path: string)
  {
    && (forall j :: 0 <= j < |path| ==> !IsUnsafe(path[j]))
    && (path == [] || IsNetlocDelim(path[0]))
  }

  /** A URL written `scheme://host path` with a lower-case scheme, a plain
      host and a plain tail splits into exactly those pieces. */
  lemma ParseAuthorityForm(url: string, hostOk: HostCheck, scheme: string, host: string, path: string)
    requires url == scheme + "://" + host + path
    requires ValidScheme(scheme) && Lower(scheme) == scheme
    requires PlainHost(host) && PlainTail(path)
    ensures Parse(url, hostOk) == Success(Parts(scheme, true, host, path))
  {
    AuthorityFormClean(url, scheme, host, path);
    SplitAuthorityForm(url, scheme, host, path);
    assert !NeedsHostCheck(host);
  }

  /** The same form with exactly one of the brackets in the host raises the
      `Invalid IPv6 URL` error. */
  lemma ParseUnbalancedForm(url: string, hostOk: HostCheck, scheme: string, host: string, path: string)
    requires url == scheme + "://" + host + path
    requires ValidScheme(scheme) && Lower(scheme) == scheme
    requires forall j :: 0 <= j < |host| ==> !IsNetlocDelim(host[j]) && !IsUnsafe(host[j])
    requires Unbalanced(host) && PlainTail(path)
    ensures Parse(url, hostOk) == Failure(InvalidIPv6Url)
  {
    AuthorityFormClean(url, scheme, host, path);
    SplitAuthorityForm(url, scheme, host, path);
  }

  /** Sanitizing leaves a URL of that form as it is. */
  lemma AuthorityFormClean(url: string, scheme: string, host: string, path: string)
    requires url == scheme + "://" + host + path
    requires ValidScheme(scheme)
    requires forall j :: 0 <= j < |host| ==> !IsUnsafe(host[j])
    requires forall j :: 0 <= j < |path| ==> !IsUnsafe(path[j])
    ensures Sanitize(url) == url
  {
    assert url[0] == scheme[0];
    assert forall c :: c in url ==> !IsUnsafe(c) by {
      forall j | 0 <= j < |url| ensures !IsUnsafe(url[j]) {
        if j < |scheme| {
          assert url[j] == scheme[j] && IsSchemeChar(scheme[j]);
        } else if |scheme| + 3 <= j < |scheme| + 3 + |host| {
          assert url[j] == host[j - |scheme| - 3];
        } else if |scheme| + 3 + |host| <= j {
          assert url[j] == path[j - |scheme| - 3 - |host|];
        }
      }
    }
    SanitizeClean(url);
  }

  lemma SplitAuthorityForm(url: string, scheme: string, host: string, path: string)
    requires url == scheme + "://" + host + path
    requires ValidScheme(scheme) && Lower(scheme) == scheme
    requires forall j :: 0 <= j < |host| ==> !IsNetlocDelim(host[j])
    requires path == [] || IsNetlocDelim(path[0])
    ensures SplitScheme(url) == (scheme, "//" + host + path)
    ensures SplitNetloc("//" + host + path) == (true, host, path)
  {
    var i := |scheme|;
    assert url[..i] == scheme;
    assert url[i + 1..] == "//" + host + path;
    SplitSchemeAt(url, i);
    SplitNetlocOf(host, path);
  }

  /** The scheme is the valid, colon-free text before the first `:`. */
  lemma SplitSchemeAt(u: string, i: int)
    requires 0 < i < |u| && u[i] == ':'
    requires ValidScheme(u[..i])
    ensures SplitScheme(u) == (Lower(u[..i]), u[i + 1..])
  {
    assert ':' !in u[..i] by {
      forall j | 0 <= j < i ensures u[..i][j] != ':' {
        assert IsSchemeChar(u[..i][j]);
      }
    }
    assert FindChar(u, ':') != -1;
  }

  /** After `//` the netloc runs to the first delimiter. */
  lemma SplitNetlocOf(host: string, path: string)
    requires forall j :: 0 <= j < |host| ==> !IsNetlocDelim(host[j])
    requires path == [] || IsNetlocDelim(path[0])
    ensures SplitNetloc("//" + host + path) == (true, host, path)
  {
    var rest := "//" + host + path;
    assert rest[..2] == "//";
    var after := rest[2..];
    assert after == host + path;
    assert forall j :: 0 <= j < |host| ==> after[j] == host[j];
    assert |path| > 0 ==> after[|host|] == path[0];
    assert FirstDelim(after) == |host|;
    assert after[..|host|] == host && after[|host|..] == path;
  }

  /** The empty string splits into nothing: no scheme, no authority. */
  lemma ParseEmpty(hostOk: HostCheck)
    ensures Parse("", hostOk) == Success(Parts("", false, "", ""))
  {
    assert Sanitize("") == "";
  }
}

=== FILE: worked_examples.dfy ===
/** Worked cases of the feature extractor, each derived from the general
    contracts of the model rather than by evaluating it. Small helpers such
    as `PlainAbIo`, `DottedHostPlain`, `NoHttpsInAbIo` and `PortValue8080`
    take a literal through a `requires` only so that the solver settles one
    fact about that literal on its own, away from the larger example. */
module WorkedExamples {
  import opened Wrappers
  import opened Text
  import opened UrlSplit
  import opened Patterns
  import opened Heuristics
  import opened HeuristicFacts
  import opened Features

  /** `http://bit.ly/abc` is flagged as a shortened URL. */
  lemma ShortenerIsShort(url: string, hostOk: HostCheck)
    requires url == "http://bit.ly/abc"
    ensures ShortUrl(url, hostOk) == -1
  {
    ShortenerParse(url, hostOk);
    BitLyIsShortener(Parse(url, hostOk).value.netloc);
  }

  lemma BitLyIsShortener(n: string)
    requires n == "bit.ly"
    ensures PortlessHost(n) in Shorteners
  {
    PortlessHostPlain(n);
    assert Lower(n) == n;
  }

  /** `http://bit.ly/abc` scores 0 for HTTPS: the scheme is plain `http`. */
  lemma ShortenerIsHttp(url: string, hostOk: HostCheck)
    requires url == "http://bit.ly/abc"
    ensures Https(url, hostOk) == Some(0)
  {
    ShortenerParse(url, hostOk);
  }

  /** `http://bit.ly/abc` has a host name, not a dotted quad. */
  lemma ShortenerHasNoIp(url: string)
    requires url == "http://bit.ly/abc"
    ensures UsingIp(url) == 1
  {
    assert !IsDigit(url[0]) && !IsDigit(url[7]) && url[4] != 's';
    NoDigitNoQuad(url, 0);
    NoDigitNoQuad(url, 7);
  }

  /** No dotted quad starts at a character that is not a digit. */
  lemma NoDigitNoQuad(s: string, i: nat)
    requires i < |s| && !IsDigit(s[i])
    ensures !MatchDottedQuad(s, i)
  {
    assert DigitRun(s, i) == 0;
  }

  lemma ShortenerParse(url: string, hostOk: HostCheck)
    requires url == "http://bit.ly/abc"
    ensures Parse(url, hostOk) == Success(Parts("http", true, "bit.ly", "/abc"))
  {
    assert url == "http" + "://" + "bit.ly" + "/abc";
    ParseAuthorityForm(url, hostOk, "http", "bit.ly", "/abc");
  }

  /** `https://192.168.1.1/login` is flagged for its IPv4 host. */
  lemma IpHostIsIp(url: string)
    requires url == "https://192.168.1.1/login"
    ensures UsingIp(url) == -1
  {
    assert HasPrefix(url, "https://");
    assert QuadEnds(url, 8, 11, 15, 17, 19);
  }

  /** `https://192.168.1.1/login` scores 1 for HTTPS. */
  lemma IpHostIsHttps(url: string, hostOk: HostCheck)
    requires url == "https://192.168.1.1/login"
    ensures Https(url, hostOk) == Some(1)
  {
    IpHostParse(url, hostOk);
  }

  lemma IpHostParse(url: string, hostOk: HostCheck)
    requires url == "https://192.168.1.1/login"
    ensures Parse(url, hostOk) == Success(Parts("https", true, "192.168.1.1", "/login"))
  {
    assert url == "https" + "://" + "192.168.1.1" + "/login";
    DottedHostPlain("192.168.1.1");
    ParseAuthorityForm(url, hostOk, "https", "192.168.1.1", "/login");
  }

  lemma DottedHostPlain(h: string)
    requires h == "192.168.1.1"
    ensures PlainHost(h)
  {
  }

  /** `https://ab.io/https` scores 1 for HTTPSDomainURL: the `https` of the
      scheme and of the path lie outside the netloc. */
  lemma HttpsSchemeNotInDomain(url: string, hostOk: HostCheck)
    requires url == "https://ab.io/https"
    ensures HttpsInDomain(url, hostOk) == Some(1)
  {
    assert url == "https" + "://" + "ab.io" + "/https";
    PlainAbIo("ab.io");
    HttpsInDomainHostOnly(url, hostOk, "https", "ab.io", "/https");
    NoHttpsInAbIo(Lower("ab.io"));
  }

  lemma NoHttpsInAbIo(l: string)
    requires |l| == 5 && l[0] == 'a'
    ensures !Contains(l, "https")
  {
    assert l[0..5][0] != "https"[0];
  }

  lemma PlainAbIo(h: string)
    requires h == "ab.io"
    ensures PlainHost(h)
  {
  }

  /** `http://[::11]:80/` scores -1 for NonStdPort although its port is 80:
      PORT_RE searches the raw netloc and first meets `:11` inside the
      brackets. The library accepts the bracketed host `::11`. */
  lemma BracketedHostPortExample(url: string, hostOk: HostCheck)
    requires url == "http://[::11]:80/"
    requires hostOk("[::11]:80")
    ensures NonStdPort(url, hostOk) == -1
  {
    BracketedParse(url, hostOk, "[::11]:80");
    BracketedPortValue("[::11]:80");
  }

  lemma BracketedParse(url: string, hostOk: HostCheck, n: string)
    requires url == "http://[::11]:80/" && n == "[::11]:80"
    requires hostOk(n)
    ensures Parse(url, hostOk) == Success(Parts("http", true, n, "/"))
  {
    assert url == "http" + "://" + n + "/";
    BracketedNetloc(n);
    AuthorityFormClean(url, "http", n, "/");
    SplitAuthorityForm(url, "http", n, "/");
  }

  lemma BracketedNetloc(n: string)
    requires n == "[::11]:80"
    ensures forall j :: 0 <= j < |n| ==> !IsNetlocDelim(n[j]) && !IsUnsafe(n[j])
    ensures !Unbalanced(n) && NeedsHostCheck(n)
  {
    assert n[0] == '[' && n[5] == ']';
  }

  lemma BracketedPortValue(n: string)
    requires n == "[::11]:80"
    ensures PortSearch(n) == Some(11)
  {
    assert PortAt(n, 2) && !PortAt(n, 0) && !PortAt(n, 1);
    assert IsDigit(n[3]) && IsDigit(n[4]) && !IsDigit(n[5]);
    assert DigitRun(n, 3) == 2;
    assert PortDigits(n, 2) == n[3..5] == "11";
    assert "11"[..1] == "1" && "1"[..0] == "";
    assert DecimalValue("11") == 11;
    PortSearchLeftmost(n, 2);
  }

  /** `https://192.168.1.1/login` holds the suspicious token `login`. */
  lemma IpHostIsAbnormal(url: string)
    requires url == "https://192.168.1.1/login"
    ensures AbnormalUrl(url) == -1
  {
    var l := Lower(url);
    assert l[20..25] == url[20..25] == "login";
    assert OccursAt(l, SuspiciousTokens[0], 20);
  }

  /** `https://sub.sub2.example.com`, with the registrable domain
      `example.com`: two subdomain labels. */
  lemma NestedSubdomainExample(url: string, tld: DomainExtractor)
    requires tld(url) == Some(DomainParts("sub.sub2", "example", "com"))
    ensures SubDomains(url, tld) == -1
  {
    assert "sub.sub2"[3] == '.';
  }

  /** The empty string: the extraction completes, HTTPS is -1 for want of a
      scheme, and the split-based heuristics see an empty netloc. */
  lemma EmptyUrlExample(url: string, env: Oracles)
    requires url == ""
    ensures Extract(url, env).Some?
    ensures var m := Extract(url, env).value;
            && Get(m, "HTTPS") == -1
            && Get(m, "ShortURL") == 1
            && Get(m, "NonStdPort") == 1
            && Get(m, "HTTPSDomainURL") == 1
  {
    EmptyUrlSignals(env.hostOk);
    ExtractLive(url, env);
  }

  lemma EmptyUrlSignals(hostOk: HostCheck)
    ensures Parse("", hostOk).Success?
    ensures Https("", hostOk) == Some(-1)
    ensures ShortUrl("", hostOk) == 1
    ensures NonStdPort("", hostOk) == 1
    ensures HttpsInDomain("", hostOk) == Some(1)
  {
    ParseEmpty(hostOk);
    NonStdPortNoColon("", hostOk);
    PortlessHostPlain("");
    assert !Contains("", "https");
  }

  /** `http://[x`: `urlsplit` rejects the lone `[`, `has_https` does not
      catch the error, and the whole extraction fails; the total extraction
      reports HTTPS -1 instead. */
  lemma LoneBracketAborts(url: string, env: Oracles)
    requires url == "http://[x"
    ensures Extract(url, env).None?
    ensures Get(ExtractTotal(url, env), "HTTPS") == -1
  {
    LoneBracketParse(url, env.hostOk);
    ExtractTotalOnSplitError(url, env);
  }

  lemma LoneBracketParse(url: string, hostOk: HostCheck)
    requires url == "http://[x"
    ensures Parse(url, hostOk) == Failure(InvalidIPv6Url)
  {
    assert url == "http" + "://" + "[x" + "";
    assert "[x"[0] == '[' && "[x"[1] == 'x';
    ParseUnbalancedForm(url, hostOk, "http", "[x", "");
  }

  /** `http://a.io:8080/x` names a port other than 80 and 443. */
  lemma OddPortExample(url: string, hostOk: HostCheck)
    requires url == "http://a.io:8080/x"
    ensures NonStdPort(url, hostOk) == -1
  {
    assert url == "http" + "://" + "a.io" + ":" + "8080" + "/x";
    PortValue8080("8080");
    NonStdPortAuthority(url, hostOk, "http", "a.io", "8080", "/x");
  }

  lemma PortValue8080(ds: string)
    requires ds == "8080"
    ensures AllDigits(ds) && DecimalValue(ds) == 8080
  {
    assert ds[..3] == "808" && ds[..3][..2] == "80" && "80"[..1] == "8" && "8"[..0] == "";
    assert DecimalValue("8") == 8 && DecimalValue("80") == 80 && DecimalValue("808") == 808;
  }

  /** `http://a.io:0080` is read as port 80, as `int("0080")` is 80. */
  lemma PaddedPortExample(url: string, hostOk: HostCheck)
    requires url == "http://a.io:0080"
    ensures NonStdPort(url, hostOk) == 1
  {
    assert url == "http" + "://" + "a.io" + ":" + "0080" + "";
    PortValue0080("0080");
    NonStdPortAuthority(url, hostOk, "http", "a.io", "0080", "");
  }

  lemma PortValue0080(ds: string)
    requires ds == "0080"
    ensures AllDigits(ds) && DecimalValue(ds) == 80
  {
    assert ds == "0" + ("0" + "80");
    assert "80"[..1][..0] == "";
    DecimalLeadingZero("80");
    DecimalLeadingZero("0" + "80");
  }
}

=== FILE: wrappers.dfy ===
/** Failure-carrying values shared by the URL splitter, the domain oracle and
    the feature extractor. */
module Wrappers {

  /** A value that may be absent; used where the source code catches an
      exception or where a library call may raise. */
  datatype Option<+T> = None | Some(value: T)

  /** A value or the reason it could not be produced. */
  datatype Result<+R, +E> = Success(value: R) | Failure(error: E)
}
